=== FILE: README.md ===
# Battleship rules engine in Dafny

A model of the rules of a human-versus-computer Battleship game (the React
component `src/components/battleship.jsx`). It covers the following:

- the ship catalog: Carrier 5, Battleship 4, Cruiser 3, Submarine 3, Destroyer 2;
- ship geometry and the placement rule on the 10x10 board. A ship must stay on
  the board, overlap nothing and touch no other ship, diagonals included;
- shot resolution, with its repeat-shot guard, hit counters, the sunk message and
  the defeat of a fleet;
- the computer's targeting. It follows up next to struck cells of ships still
  afloat, and otherwise searches at random;
- the random generation of the computer's fleet;
- the phases, the turns and the reset, as a state machine over events.

Cells are `Empty | Ship(n) | Hit(n) | Miss`. This abstracts the strings `null`,
`n`, `'hit-'+n` and `'miss'`. No catalog name contains `hit` or `miss` and none
contains `-`. So the game's `includes('hit')` / `includes('miss')` tests are exactly
`Hit?` / `Miss?`, and `split('-')[1]` recovers the name. A board is
`seq<seq<Cell>>` (`Grid.WellFormed`: 10 rows of 10). A fleet is a sequence of
`{name, positions, hits}` records.

Randomness is a parameter. Every `Math.random()` call is one value in `[0, 1)`
taken from a tape of reals. An index is `floor(u * n)` (`Dice.Scale`), as in the
game. The two rejection-sampling loops consume the tape: the fleet generator
(three values per attempt) and the computer's random search (two values per
draw). If the tape runs out before a loop settles, the result is `None`.
Lemmas show the following:
- every untried cell is the random search's result for some two draws;
- every placement is the attempt made from some three draws;
- an accepted attempt is committed and a rejected one is retried for the same ship
  (`Generator.DeployCommits`, `Generator.DeployRetries`);
- on one concrete tape of fifteen draws, fleet generation succeeds and a new game
  starts (`Samples.FleetCanBeGenerated`).

The central invariant is `Fleets.Consistent`, which ties the records to the board:
- names are unique;
- each record lists `Size` distinct cells on the board that carry its name;
- its counter equals the number of those cells that are struck;
- every ship cell belongs to a record.

`Placement.NoTouch` says cells of different ships are never 8-adjacent.
Placement, generation and shots all keep both. `Controller.GameInv` adds the
phase, turn and winner facts, and `Controller.StepKeepsInvariant` shows that every
event keeps them. This includes the computer's shot that still lands after the
player has won. `Samples.InvariantInhabited` builds a placement state and a battle
state that satisfy `GameInv`, so the lemmas that assume it are not vacuous. Both
states use a fleet with one ship on each even row. `Samples.ComputerCanShoot`
gives a battle state with the computer to move and draws for which its shot fires.

Points where the code does something other than a reader might expect, all modelled as the code does them:
- The end of the game is the flag `gameOver`. It is not a third phase: the phase
  stays `battle` after a win.
- "Play again" exists only once the game is over (battleship.jsx:378-385).
- The human can place the same ship type only once. Only the ship button
  guards this (battleship.jsx:350, 361-362): `handleCellClick` does not re-check
  it. So `Controller.SelectShip` is modelled.
- The follow-up candidates are a concatenation that keeps duplicates
  (`flatMap`), not a set. The model keeps the list. Its properties are stated
  on membership.
- After the player's winning shot the computer still shoots. See "## Findings".

Modules, one per file: `Options`, `Catalog`, `Grid`, `Placement`, `Fleets`,
`Shots`, `Dice`, `Targeting`, `Generator`, `Controller`, and `Samples` for
the concrete states that satisfy the invariant.

## Model

| member | source | states |
|---|---|---|
| Catalog.OrderIsCatalog | src/components/battleship.jsx:4-10 | The catalog lists each of the five ship types exactly once. |
| Placement.ShipPositions | src/components/battleship.jsx:54-64 | A ship has exactly `size` cells. The first is the anchor, and cell `i` is `i` columns right (horizontal) or `i` rows down (vertical). |
| Placement.PositionsOnBoard | src/components/battleship.jsx:54-64 | A ship that passes the edge test lies wholly on the board and lists no cell twice. |
| Placement.CanPlaceInBounds | src/components/battleship.jsx:66-96 | An accepted ship satisfies `col+size <= 10` (horizontal) or `row+size <= 10` (vertical), and each of its cells is on the board and empty. |
| Placement.BlockClear | src/components/battleship.jsx:71-78 | The two inner loops return true iff the cell and each of its in-bounds 8-neighbours is empty. |
| Placement.CanPlaceShip | src/components/battleship.jsx:66-97 | The nested loops with early exits return true iff the ship fits, and every ship cell and every in-bounds 8-neighbour of one is empty. |
| Placement.PlaceShip | src/components/battleship.jsx:99-111 | Exactly the ship's cells become `Ship(name)`, every other cell is unchanged, and the written cells come back in order. |
| Placement.PlaceKeepsApart | src/components/battleship.jsx:37-38 | Placing a ship that the rule accepts on a board where ships do not touch keeps them apart. |
| Fleets.Find | src/components/battleship.jsx:195 | Returns the first record with the name, or nothing exactly when no record has it. |
| Fleets.HitsBounded | src/components/battleship.jsx:143-152 | With consistent records, no ship has more hits than its catalog length. |
| Fleets.AllSunkNoShipLeft | src/components/battleship.jsx:155 | With consistent records, a fully sunk fleet leaves no unstruck ship cell on the board. |
| Fleets.AddShip | src/components/battleship.jsx:37-43 | Placing an accepted ship appends a record with its cells and zero hits, and changes only those cells. |
| Fleets.AddShipKeepsConsistent | src/components/battleship.jsx:120-124 | Adding an accepted ship of a new type keeps the names unique, every record fitting the board, and every ship cell owned. |
| Fleets.AddShipKeepsInvariants | src/components/battleship.jsx:120-124 | Adding an accepted ship of a new type keeps records and board consistent and ships apart. |
| Shots.Strike | src/components/battleship.jsx:135-163 | A shot at an untried cell changes only that cell. Open water becomes `Miss`, the fleet stays the same and the outcome is a miss. A ship cell becomes `Hit` of that ship. |
| Shots.RecordHit | src/components/battleship.jsx:143-152 | Only hit counters change, and names and cells stay the same. A record gains exactly one hit iff it is named `n`, and every other record is unchanged. |
| Shots.Fire | src/components/battleship.jsx:133-163 | The shot is refused exactly when the cell is already hit or missed, and then board and fleet are unchanged. |
| Shots.RepeatShotIgnored | src/components/battleship.jsx:133 | A second shot at the same cell is refused and changes neither board nor counters. |
| Shots.StrikeCounters | src/components/battleship.jsx:136-153 | A miss changes no record. A hit on ship `n` gives the record of `n` exactly one more hit and leaves every other record alone. Every ship's hits stay at most its length. |
| Shots.StrikeHitsBounded | src/components/battleship.jsx:143-152 | After a shot at a consistent fleet, no ship has more hits than its length. |
| Shots.OutcomeRule | src/components/battleship.jsx:141-158 | `Defeated` iff the shot struck a ship and every ship's hits now equal its length. `Sunk(n)` iff it completed ship `n` without ending the game. A plain hit otherwise. |
| Shots.StrikeKeepsConsistent | src/components/battleship.jsx:138-153 | A shot keeps the hit counters equal to the struck cells of each ship and every ship cell owned. |
| Shots.StrikeKeepsApart | src/components/battleship.jsx:138-140 | A shot does not change which ship a cell belongs to, so ships stay apart. |
| Shots.DefeatedOnlyOnce | src/components/battleship.jsx:133-158 | Once a consistent fleet is all sunk, every further shot is refused or misses, so defeat is reported only once. |
| Dice.Scale | src/components/battleship.jsx:34-35 | `floor(u * n)` for a draw `u` in [0,1) is an index below `n`. |
| Dice.ScaleReaches | src/components/battleship.jsx:212 | Every index below `n` is `floor(u * n)` for some draw. |
| Dice.Draw | src/components/battleship.jsx:212 | The draw `k / n` lies in [0,1) and scales back to the index `k`. |
| Targeting.LiveHits | src/components/battleship.jsx:189-203 | The scan returns exactly the struck cells whose ship, found by name, has fewer hits than its length. |
| Targeting.Openings | src/components/battleship.jsx:175-187 | The targets around a cell are exactly its 4-neighbours that are on the board and not hit or missed. |
| Targeting.OpeningsOf | src/components/battleship.jsx:209 | The concatenated list contains exactly the untried cells next to some cell of the given list. |
| Targeting.Candidates | src/components/battleship.jsx:206-209 | Follow-up candidates are exactly the untried in-bounds 4-neighbours of live struck cells. |
| Targeting.Hunt | src/components/battleship.jsx:214-223 | Random search only ever ends on an in-bounds cell that is neither hit nor missed. |
| Targeting.Pick | src/components/battleship.jsx:212 | The element at a drawn index is always one of the list's elements. |
| Targeting.ChooseTarget | src/components/battleship.jsx:205-224 | The computer's target is always on the board and never already hit or missed. |
| Targeting.HuntReaches | src/components/battleship.jsx:220-223 | Every untried cell is the result of random search for some two draws. |
| Targeting.TargetFollowsLiveHits | src/components/battleship.jsx:208-212 | If a live struck cell has an untried 4-neighbour, the target is a candidate next to a live cell. |
| Targeting.EveryCandidateReachable | src/components/battleship.jsx:211-212 | Each follow-up candidate is the computer's choice for some draw. |
| Targeting.NoLeadMeansHunt | src/components/battleship.jsx:219-224 | With no live struck cell, the choice is random search. |
| Targeting.NoOpeningMeansHunt | src/components/battleship.jsx:208-218 | With live struck cells but no untried 4-neighbour next to any of them, the choice is random search as well. |
| Targeting.SunkShipDropsOut | src/components/battleship.jsx:193-198 | After a shot sinks a ship, none of that ship's struck cells is live, so they no longer steer the computer's follow-ups. |
| Generator.Deploy | src/components/battleship.jsx:30-47 | Rejection sampling places the pending ships in order. Each is unhit. Records and board stay consistent, no ships touch, and earlier ships are kept. |
| Generator.GenerateFleet | src/components/battleship.jsx:25-51 | The computer's fleet holds every catalog ship once, in catalog order, unhit, consistent with its board and apart. |
| Generator.AttemptDraws | src/components/battleship.jsx:33-35 | Every anchor on the board and either orientation is reachable: three draws in [0, 1) make an attempt at exactly that placement. |
| Generator.DeployCommits | src/components/battleship.jsx:31-44 | If the rule accepts the attempt the draws make, the ship is placed there. The rest of the tape then deploys the remaining ships on the new board, with records consistent, ships apart and names still distinct. |
| Generator.DeployRetries | src/components/battleship.jsx:31-46 | If the rule rejects the attempt, nothing is placed, and the same ship is tried again with the next draws. |
| Samples.FleetCanBeGenerated | src/components/battleship.jsx:25-51 | On fifteen concrete draws, one horizontal ship per even row from column 0, fleet generation returns a fleet and a new game starts. |
| Generator.Attempt | src/components/battleship.jsx:33-35 | One attempt's anchor is always on the board, and its orientation is horizontal exactly when the first draw is below 0.5. |
| Controller.NewGame | src/components/battleship.jsx:283-295 | A reset, and the first state, are placement phase, horizontal, nothing selected, an empty player board and fleet, no winner, the player to move, and a freshly generated computer fleet satisfying the game invariant. |
| Controller.Cleared | src/components/battleship.jsx:283-295 | A reset gives the placement phase, the player to move, no winner, no ships, and both boards all open water. The empty player board is consistent with its empty fleet, and ships are apart. |
| Controller.SelectShip | src/components/battleship.jsx:349-362 | Only the selection can change. A changed selection is the picked ship, during placement, and not yet placed. During placement an unplaced ship always becomes selected. |
| Controller.RotateShip | src/components/battleship.jsx:369-374 | During placement the orientation flips and nothing else changes. |
| Controller.RotateTwiceRestores | src/components/battleship.jsx:371 | Rotating twice returns to the original orientation and state. |
| Controller.PickThenPlace | src/components/battleship.jsx:350-362 | After picking an unplaced ship and clicking a cell, the placed types are unchanged or have gained exactly the picked type, so no type is placed twice. |
| Controller.ClickOwnBoard | src/components/battleship.jsx:113-131 | A click on the player's own board never touches the computer's side, the turn, the game-over flag or the winner. If it changes anything, it came during placement, with a ship selected, before the game ended and on the player's turn. It then clears the selection and adds exactly one record. |
| Controller.PlacementProgress | src/components/battleship.jsx:116-131 | A rejected placement changes nothing. An accepted one appends the record with zero hits and clears the selection, and it starts the battle iff it is the fifth ship. |
| Controller.ClickOwnKeepsInvariant | src/components/battleship.jsx:113-131 | Clicks on the player's board keep the game invariant. |
| Controller.HumanShotTurn | src/components/battleship.jsx:113-169 | Shots are refused after the game, outside the battle and on the computer's turn. A repeat shot changes nothing, the turn included. Any other shot hands the turn to the computer. |
| Controller.PlayerWinsIffFleetSunk | src/components/battleship.jsx:155-158 | The player's shot ends the game with the player as winner iff every computer ship's hits equal its length. |
| Controller.ClickOpponentBoard | src/components/battleship.jsx:113-169 | A click on the computer's board never touches the player's board or fleet, the phase or the selection. When no shot is taken, nothing changes. A shot is taken only in battle, on the player's turn, before the game ends. It resolves exactly the clicked cell: the computer's board, fleet and outcome are those of the shot at `p`. The game ends only by a `Defeated` shot, with the player as winner. |
| Controller.ClickEnemyKeepsInvariant | src/components/battleship.jsx:132-166 | The player's shots keep the game invariant. |
| Controller.Respond | src/components/battleship.jsx:226-257 | The computer's shot changes only the target cell of the player's board. Open water becomes `Miss` and leaves the player's fleet alone; a ship cell becomes `Hit` of that ship. The computer's side, the phase and the selection are untouched. A defeat of the player's fleet makes the computer the winner; any other outcome leaves the game-over flag and the winner unchanged. The player's records and the reported outcome are exactly those of the shot rule at the target, so the struck ship gains one hit and a sinking or a defeat is reported. The turn returns to the player. |
| Controller.ComputerShot | src/components/battleship.jsx:172-257 | The computer's turn as the program runs it: it shoots exactly when a target is chosen, strikes exactly that untried cell and no other, updates the player's records and reports the outcome by the shot rule, leaves the computer's side alone and hands the move back. Its game-over guard never stops it. |
| Controller.ComputerTurn | src/components/battleship.jsx:172-173 | Corrected turn: once the game is over no shot is fired and nothing changes. Otherwise it shoots exactly when a target is chosen, strikes exactly that cell and hands the move back. |
| Controller.ComputerWinsIffFleetSunk | src/components/battleship.jsx:246-257 | The computer's shot returns the turn, and ends the game with the computer as winner iff every player ship's hits equal its length. |
| Controller.RespondKeepsInvariant | src/components/battleship.jsx:226-257 | The computer's shot at any untried cell keeps the game invariant. |
| Controller.ComputerShotKeepsInvariant | src/components/battleship.jsx:168-257 | The computer's turn as the program runs it keeps the game invariant, also when it fires after the player's winning shot. |
| Controller.ComputerTurnKeepsInvariant | src/components/battleship.jsx:172-173 | The corrected turn also keeps the game invariant. |
| Controller.TurnsAlternate | src/components/battleship.jsx:166-168 | After a player shot that does not end the game, clicks on the computer's board are ignored until the computer's turn runs, and that turn gives the move back. |
| Controller.StepKeepsInvariant | src/components/battleship.jsx:113-257 | Every event keeps the game invariant. This covers the program's computer turn, including its shot after a win. The invariant means consistent records, ships apart, the placement and battle facts, and a winner only when the loser's fleet is sunk. |
| Controller.Step | src/components/battleship.jsx:113-257 | Only the random events, the computer's turn and "play again", can fail for lack of draws. Only the player's shot (or a reset) changes the computer's board. Only placement, the computer's shot (or a reset) change the player's board. The computer's move changes the game only in battle, on the computer's turn, and hands the move back; when such a turn is pending and its draws settle a target, it always fires and hands the move back. A player's shot that changes the game happens only in battle, on the player's turn, and hands the move over. Only shots and "play again" change whose turn it is. So exactly one computer shot comes between two player shots. Only "play again" reopens a finished game. |
| Controller.WinningShotState | src/components/battleship.jsx:155-158 | A winning shot sets game over with the player as winner and leaves the player's own board and fleet alone. |
| Controller.StaleGuardShootsAfterWin | src/components/battleship.jsx:168-173 | As written, after the player's winning shot the computer still shoots. The player's board changes, the turn comes back, and if that shot sinks the player's last ship the winner becomes the computer. |
| Controller.WinnerFlips | src/components/battleship.jsx:155-173 | As written, if the player's shot wins and the computer's chosen target sinks the player's last ship, the stale turn still fires and the winner flips to the computer. |
| Controller.StaleGuardWitness | src/components/battleship.jsx:133-173 | A concrete state meets every hypothesis of `WinnerFlips`. Both sides are down to a Destroyer struck once at (0, 1), with (1, 1) and (0, 2) missed. The player's shot at (0, 0) wins. The computer's draw 0.0 picks (0, 0), and that shot sinks the player's last ship. |
| Controller.NoShotAfterWin | src/components/battleship.jsx:172-173 | Corrected: after the player's winning shot the computer's turn fires nothing, and the player stays the winner. |

## Findings

| source | as written | input that shows it | evidently intended | confidence | as-written member | corrected member |
|---|---|---|---|---|---|---|
| src/components/battleship.jsx:168-173 | `setTimeout(computerTurn, 1000)` schedules the `computerTurn` closure of the render that handled the click. Its `if (gameOver) return` reads that render's `gameOver`. That value is always `false`, because line 114 already returned otherwise. So the computer shoots even after the player's shot has won. | Both fleets are down to a Destroyer struck once at (0, 1), with (1, 1) and (0, 2) missed. The player fires at (0, 0) and wins. The pending computer turn follows up the live hit at (0, 1), whose only untried neighbour is (0, 0). That shot sinks the player's Destroyer, the winner becomes 'computer', and the message reads "Game Over! Computer wins!". | No computer shot once the game is over. | high; not executed | Controller.WinnerFlips | Controller.NoShotAfterWin |

`Controller.ComputerShot` (with `Controller.Respond`) models the computer's turn
as written, with the guard that never fires. `Controller.StaleGuardShootsAfterWin`
shows that this turn always shoots after a win. `Controller.WinnerFlips` shows when
the winner flips, and `Controller.StaleGuardWitness` gives a concrete state in which
it happens. `Controller.Step` runs this as-written turn, and
`Controller.StepKeepsInvariant` shows that the invariant survives it.
`Controller.ComputerTurn` is the corrected half: it adds the intended check on the
current `gameOver`, and `Controller.NoShotAfterWin` proves that it fires nothing
after a win. The witness state of `Controller.StaleGuardWitness` gives each side a
fleet holding only the Destroyer. It is therefore not a state the game reaches, and
it does not satisfy `Controller.GameInv`. It only shows that the hypotheses of
`Controller.WinnerFlips` can hold together. In a real game the other four ships
of each side would already be sunk and recorded.

## Left out

- Rendering: JSX, colours, hover highlighting (battleship.jsx:260-281, 297-389) and
  all message strings. Shots report an `Outcome` instead:
  `AlreadyShot | Missed | Struck | Sunk(n) | Defeated`.
- React plumbing: `useState`, `useEffect` and the one-second `setTimeout`. The
  delayed computer turn is the event `ComputerMove`. It acts only while a turn is
  pending, that is in battle with the turn handed to the computer. The timer fires
  once per accepted shot, and nothing else can run the turn.
- Timing races. A "play again" click inside the one-second window after a win
  would let the stale computer turn write the old board into the new game. That
  interleaving is not modelled.
- Random distributions. `Math.random` is a tape of values in [0,1). Only which
  cells can be reached is modelled, not the probabilities. Duplicates in the
  candidate list make the real choice weighted.
- Termination of the rejection-sampling loops (battleship.jsx:32-46, 214-223).
  A finite tape may run out, and the result is then `None`. The game would keep
  drawing instead.
- Placement.CanPlaceShip: it requires the anchor to be on the board. In the game
  every anchor is a clicked cell or a draw in [0,10). Off-board anchors would fail
  or misbehave in JavaScript, which is not modelled.
- Placement.PlaceShip: it requires the ship to fit. The game calls it only after
  `canPlaceShip`, so writes past the end of a row are not modelled.
- Controller.Respond: it requires an untried target. The computer's shot has no
  repeat guard of its own (battleship.jsx:226-231), but every chosen target is
  untried.

=== FILE: catalog.dfy ===
/** The fixed ship catalog of the game and the two ship orientations. */
module Catalog {

  /** The five ship types, in the order the catalog declares them. */
  datatype ShipName = Carrier | Battleship | Cruiser | Submarine | Destroyer

  datatype Orientation = Horizontal | Vertical

  /** Length of each ship type. */
  function Size(n: ShipName): nat
  {
    match n
    case Carrier => 5
    case Battleship => 4
    case Cruiser => 3
    case Submarine => 3
    case Destroyer => 2
  }

  /** Catalog order; the computer places its fleet in this order. */
  const Order: seq<ShipName> := [Carrier, Battleship, Cruiser, Submarine, Destroyer]

  /** No element occurs twice in `s`. */
  predicate Distinct<T(==)>(s: seq<T>)
  {
    forall i, j :: 0 <= i < j < |s| ==> s[i] != s[j]
  }

  /** The catalog lists every ship type exactly once. */
  lemma OrderIsCatalog()
    ensures Distinct(Order) && |Order| == 5
    ensures forall n: ShipName :: n in Order
  {
    forall n: ShipName
      ensures n in Order
    {
      match n
      case Carrier => assert Order[0] == n;
      case Battleship => assert Order[1] == n;
      case Cruiser => assert Order[2] == n;
      case Submarine => assert Order[3] == n;
      case Destroyer => assert Order[4] == n;
    }
  }

}

=== FILE: controller.dfy ===
/** The game as a state machine: the placement phase, the battle with its
    alternating turns, the game-over flag and the reset. */
module Controller {

  import opened Options
  import opened Catalog
  import opened Grid
  import opened Placement
  import opened Fleets
  import opened Shots
  import opened Dice
  import opened Targeting
  import opened Generator

  /** The game has two phases; the end of the game is a separate flag. */
  datatype Phase = PlacingShips | InBattle

  datatype Winner = Undecided | PlayerWins | ComputerWins

  /** Everything the game keeps between events. */
  datatype Game = Game(
    phase: Phase,
    selected: Option<ShipName>,
    orientation: Orientation,
    playerBoard: Board,
    opponentBoard: Board,
    opponentShips: Fleet,
    placedShips: Fleet,
    gameOver: bool,
    winner: Winner,
    playerTurn: bool)

  /** A state after an event, with the outcome of the shot it fired, if any. */
  datatype Move = Move(game: Game, outcome: Option<Outcome>)

  /** What the game promises between events: each side's records agree with
      its board and its ships never touch; the computer has the whole catalog;
      during placement the player's turn is open, at most four ships are down
      and the selected ship is not among them, and no computer ship carries a
      hit; in battle the player has all five ships; the game is over
      exactly when there is a winner, whose opponent's fleet is sunk; and a
      battle still running has no fully sunk fleet. */
  ghost predicate GameInv(g: Game)
  {
    && Consistent(g.playerBoard, g.placedShips) && NoTouch(g.playerBoard)
    && Consistent(g.opponentBoard, g.opponentShips) && NoTouch(g.opponentBoard)
    && Names(g.opponentShips) == Order
    && (g.phase == PlacingShips ==>
          && |g.placedShips| <= 4 && !g.gameOver && g.playerTurn
          && (g.selected.Some? ==> g.selected.value !in Names(g.placedShips))
          && forall k :: 0 <= k < |g.opponentShips| ==> g.opponentShips[k].hits == 0)
    && (g.phase == InBattle ==> |g.placedShips| == 5)
    && (g.gameOver <==> g.winner != Undecided)
    && (g.winner == PlayerWins ==> AllSunk(g.opponentShips))
    && (g.winner == ComputerWins ==> AllSunk(g.placedShips))
    && (g.phase == InBattle && !g.gameOver ==> !AllSunk(g.opponentShips) && !AllSunk(g.placedShips))
  }

  /** The state a reset sets, which is also the very first state: placement,
      nothing selected, horizontal, empty boards and fleets, no winner, the
      player to move. */
  function Cleared(): (r: Game)
    ensures r.phase == PlacingShips && r.playerTurn && !r.gameOver && r.winner == Undecided
    ensures r.placedShips == [] && r.opponentShips == []
    ensures WellFormed(r.playerBoard) && WellFormed(r.opponentBoard)
    ensures forall q :: InBounds(q) ==> At(r.playerBoard, q) == Empty && At(r.opponentBoard, q) == Empty
    ensures Consistent(r.playerBoard, r.placedShips) && NoTouch(r.playerBoard)
  {
    EmptyBoardSound();
    Game(PlacingShips, None, Horizontal, EmptyBoard(), EmptyBoard(), [], [], false, Undecided, true)
  }

  /** Entering placement immediately generates the computer's fleet; `None`
      when the draws do not suffice. */
  ghost function NewGame(tape: seq<real>): (r: Option<Game>)
    requires ValidTape(tape)
    ensures r.Some? ==> GameInv(r.value)
    ensures r.Some? ==> var g := r.value;
      && g.phase == PlacingShips && g.selected == None && g.orientation == Horizontal
      && g.playerBoard == EmptyBoard() && g.placedShips == []
      && !g.gameOver && g.winner == Undecided && g.playerTurn
      && Names(g.opponentShips) == Order
  {
    match GenerateFleet(tape)
    case None => None
    case Some(bf) =>
      EmptyBoardSound();
      Some(Cleared().(opponentBoard := bf.0, opponentShips := bf.1))
  }

  /** The ship buttons exist only during placement; a ship already placed
      cannot be selected. */
  function SelectShip(g: Game, n: ShipName): (g': Game)
    ensures g' == g.(selected := g'.selected)
    ensures g'.selected != g.selected ==> g.phase == PlacingShips && g'.selected == Some(n) && n !in Names(g.placedShips)
    ensures g.phase == PlacingShips && n !in Names(g.placedShips) ==> g'.selected == Some(n)
  {
    if g.phase == PlacingShips && n !in Names(g.placedShips) then g.(selected := Some(n)) else g
  }

  /** The rotate button exists only during placement and flips the orientation. */
  function RotateShip(g: Game): (g': Game)
    ensures g.phase == PlacingShips ==> g'.orientation != g.orientation && g' == g.(orientation := g'.orientation)
    ensures g.phase != PlacingShips ==> g' == g
  {
    if g.phase == PlacingShips then
      g.(orientation := if g.orientation == Horizontal then Vertical else Horizontal)
    else g
  }

  /** A click on the player's own board: during placement, with a ship
      selected, places it if the rule accepts and clears the selection; the
      fifth ship starts the battle. Ignored after the game ends, while the
      computer is to move, and during the battle. */
  ghost function ClickOwnBoard(g: Game, p: Pos): (g': Game)
    requires WellFormed(g.playerBoard) && InBounds(p)
    ensures g'.opponentBoard == g.opponentBoard && g'.opponentShips == g.opponentShips
    ensures g'.gameOver == g.gameOver && g'.winner == g.winner && g'.playerTurn == g.playerTurn
    ensures g' != g ==>
      && !g.gameOver && g.playerTurn && g.phase == PlacingShips && g.selected.Some?
      && g'.selected == None && |g'.placedShips| == |g.placedShips| + 1
  {
    if g.gameOver || !g.playerTurn then g
    else if g.phase == PlacingShips then
      match g.selected
      case None => g
      case Some(n) =>
        if CanPlace(g.playerBoard, p.row, p.col, Size(n), g.orientation) then
          var bf := AddShip(g.playerBoard, g.placedShips, n, p.row, p.col, g.orientation);
          var g1 := g.(playerBoard := bf.0, placedShips := bf.1, selected := None);
          if |g.placedShips| == 4 then g1.(phase := InBattle) else g1
        else g
    else g
  }

  /** A click on the computer's board: a shot, taken only in battle, on the
      player's turn, before the game ends. A repeat shot changes nothing; any
      other shot is resolved, ends the game with the player as winner if it
      sinks the whole fleet, and passes the turn to the computer. */
  function ClickOpponentBoard(g: Game, p: Pos): (m: Move)
    requires WellFormed(g.opponentBoard) && InBounds(p)
    ensures m.game.playerBoard == g.playerBoard && m.game.placedShips == g.placedShips
    ensures m.game.phase == g.phase && m.game.selected == g.selected && m.game.orientation == g.orientation
    ensures m.outcome.None? ==> m.game == g
    ensures m.outcome.Some? ==> !g.gameOver && g.phase == InBattle && g.playerTurn
    ensures m.game.gameOver != g.gameOver ==> m.outcome == Some(Defeated) && m.game.winner == PlayerWins
    ensures m.outcome.Some? ==> var s := Fire(g.opponentBoard, g.opponentShips, p);
      && m.outcome == Some(s.outcome)
      && m.game.opponentBoard == s.board && m.game.opponentShips == s.fleet
  {
    if g.gameOver then Move(g, None)
    else if g.phase == InBattle && g.playerTurn then
      var s := Fire(g.opponentBoard, g.opponentShips, p);
      if s.outcome == AlreadyShot then Move(g, Some(AlreadyShot))
      else
        var g1 := g.(opponentBoard := s.board, opponentShips := s.fleet, playerTurn := false);
        Move(if s.outcome == Defeated then g1.(gameOver := true, winner := PlayerWins) else g1, Some(s.outcome))
    else Move(g, None)
  }

  /** The computer's shot at a chosen target: only the target cell of the
      player's board changes, open water becoming a miss and a ship cell a
      hit of that ship; the computer's side is untouched; a defeat of the
      player's fleet makes the computer the winner, any other outcome leaves
      the game-over flag and the winner as they were; and the turn returns to
      the player. */
  function Respond(g: Game, t: Pos): (m: Move)
    requires WellFormed(g.playerBoard) && InBounds(t) && !Tried(At(g.playerBoard, t))
    ensures m.game.playerTurn && m.outcome.Some? && m.outcome.value != AlreadyShot
    ensures WellFormed(m.game.playerBoard)
    ensures forall q :: InBounds(q) && q != t ==> At(m.game.playerBoard, q) == At(g.playerBoard, q)
    ensures At(g.playerBoard, t) == Empty ==> At(m.game.playerBoard, t) == Miss && m.game.placedShips == g.placedShips
    ensures At(g.playerBoard, t).Ship? ==> At(m.game.playerBoard, t) == Hit(At(g.playerBoard, t).name)
    ensures m.game.opponentBoard == g.opponentBoard && m.game.opponentShips == g.opponentShips
    ensures m.game.phase == g.phase && m.game.selected == g.selected && m.game.orientation == g.orientation
    ensures m.outcome == Some(Defeated) ==> m.game.gameOver && m.game.winner == ComputerWins
    ensures m.outcome != Some(Defeated) ==> m.game.gameOver == g.gameOver && m.game.winner == g.winner
    ensures var s := Strike(g.playerBoard, g.placedShips, t);
      m.game.placedShips == s.fleet && m.outcome == Some(s.outcome)
  {
    var s := Strike(g.playerBoard, g.placedShips, t);
    var g1 := g.(playerBoard := s.board, placedShips := s.fleet, playerTurn := true);
    Move(if s.outcome == Defeated then g1.(gameOver := true, winner := ComputerWins) else g1, Some(s.outcome))
  }

  /** The computer's turn as the game performs it. The game-over guard at
      its start reads the value captured when the turn was scheduled, which
      is always "not over", so it never stops the shot. The turn shoots
      exactly when a target is chosen, strikes that target and nothing else,
      and hands the move back. `None` when the draws do not settle a target. */
  function ComputerShot(g: Game, tape: seq<real>): (r: Option<Move>)
    requires WellFormed(g.playerBoard) && ValidTape(tape)
    ensures r.Some? <==> ChooseTarget(g.playerBoard, g.placedShips, tape).Some?
    ensures r.Some? ==> ShotLanded(g, ChooseTarget(g.playerBoard, g.placedShips, tape).value, r.value)
  {
    match ChooseTarget(g.playerBoard, g.placedShips, tape)
    case None => None
    case Some(t) => Some(Respond(g, t))
  }

  /** The computer's move `m` struck exactly the untried cell `t` of the
      player's board, updated the player's records and reported the outcome as
      the shot rule does, left the computer's side alone and handed the move
      back. */
  ghost predicate ShotLanded(g: Game, t: Pos, m: Move)
  {
    && WellFormed(g.playerBoard) && WellFormed(m.game.playerBoard) && InBounds(t)
    && !Tried(At(g.playerBoard, t)) && Tried(At(m.game.playerBoard, t))
    && (forall q :: InBounds(q) && q != t ==> At(m.game.playerBoard, q) == At(g.playerBoard, q))
    && m.game.placedShips == Strike(g.playerBoard, g.placedShips, t).fleet
    && m.outcome == Some(Strike(g.playerBoard, g.placedShips, t).outcome)
    && m.game.opponentBoard == g.opponentBoard && m.game.opponentShips == g.opponentShips
    && m.game.playerTurn
  }

  /** The computer's turn as evidently intended: no shot once the game is
      over; otherwise it shoots exactly when a target is chosen, strikes that
      target and hands the move back. */
  function ComputerTurn(g: Game, tape: seq<real>): (r: Option<Move>)
    requires WellFormed(g.playerBoard) && ValidTape(tape)
    ensures g.gameOver ==> r == Some(Move(g, None))
    ensures !g.gameOver ==> (r.Some? <==> ChooseTarget(g.playerBoard, g.placedShips, tape).Some?)
    ensures !g.gameOver && r.Some? ==> ShotLanded(g, ChooseTarget(g.playerBoard, g.placedShips, tape).value, r.value)
  {
    if g.gameOver then Some(Move(g, None)) else ComputerShot(g, tape)
  }

  /** What can happen to a game: the player's clicks and buttons, the
      scheduled computer turn (with its random draws), and "play again". */
  datatype Event =
    | Select(name: ShipName)
    | Rotate
    | ClickOwn(at: Pos)
    | ClickEnemy(at: Pos)
    | ComputerMove(draws: seq<real>)
    | PlayAgain(seed: seq<real>)

  /** Clicks land on cells and draws lie in [0, 1). */
  predicate Admissible(e: Event)
  {
    match e
    case ClickOwn(p) => InBounds(p)
    case ClickEnemy(p) => InBounds(p)
    case ComputerMove(t) => ValidTape(t)
    case PlayAgain(t) => ValidTape(t)
    case _ => true
  }

  /** One event. The computer's turn runs only when one is pending: in battle
      with the turn handed to the computer; it is the turn as the game
      performs it, so it also runs right after the player's winning shot.
      "Play again" is offered only once the game is over. `None` when the
      draws do not suffice. A pending computer turn whose draws settle a
      target always fires and hands the move back, and only shots and "play
      again" pass the turn. Only a random event can fail; only the player's
      shot touches the computer's board; only placement and the computer's
      shot touch the player's; and only "play again" reopens a finished game. */
  ghost function Step(g: Game, e: Event): (r: Option<Game>)
    requires GameInv(g) && Admissible(e)
    ensures r.None? ==> e.ComputerMove? || e.PlayAgain?
    ensures r.Some? && r.value.opponentBoard != g.opponentBoard ==> e.ClickEnemy? || e.PlayAgain?
    ensures r.Some? && r.value.playerBoard != g.playerBoard ==> e.ClickOwn? || e.ComputerMove? || e.PlayAgain?
    ensures r.Some? && g.gameOver && !r.value.gameOver ==> e.PlayAgain?
    ensures r.Some? && e.ComputerMove? && r.value != g ==> g.phase == InBattle && !g.playerTurn && r.value.playerTurn
    ensures r.Some? && e.ClickEnemy? && r.value != g ==> g.phase == InBattle && g.playerTurn && !r.value.playerTurn
    ensures e.ComputerMove? && g.phase == InBattle && !g.playerTurn && r.Some? ==> r.value != g && r.value.playerTurn
    ensures r.Some? && r.value.playerTurn != g.playerTurn ==> e.ClickEnemy? || e.ComputerMove? || e.PlayAgain?
  {
    match e
    case Select(n) => Some(SelectShip(g, n))
    case Rotate => Some(RotateShip(g))
    case ClickOwn(p) => Some(ClickOwnBoard(g, p))
    case ClickEnemy(p) => Some(ClickOpponentBoard(g, p).game)
    case ComputerMove(t) =>
      if g.phase == InBattle && !g.playerTurn then
        match ComputerShot(g, t)
        case None => None
        case Some(m) => Some(m.game)
      else Some(g)
    case PlayAgain(t) => if g.gameOver then NewGame(t) else Some(g)
  }

  /** A fresh fleet of catalog ships is not sunk: its first ship has no hits. */
  lemma FreshFleetAfloat(f: Fleet)
    requires |f| > 0 && f[0].hits == 0
    ensures !AllSunk(f)
  {
    assert !IsSunk(f[0]);
  }

  /** Placement: with a ship selected, a click the rule rejects
      changes nothing; an accepted click records the ship with its cells and
      no hits, clears the selection, and starts the battle exactly when it is
      the fifth ship. */
  lemma PlacementProgress(g: Game, p: Pos)
    requires GameInv(g) && g.phase == PlacingShips && g.selected.Some? && InBounds(p)
    ensures var g' := ClickOwnBoard(g, p);
      var n := g.selected.value;
      if CanPlace(g.playerBoard, p.row, p.col, Size(n), g.orientation) then
        && g'.placedShips == g.placedShips + [ShipRecord(n, ShipPositions(p.row, p.col, Size(n), g.orientation), 0)]
        && g'.selected == None
        && (g'.phase == InBattle <==> |g.placedShips| == 4)
        && g'.opponentBoard == g.opponentBoard && g'.opponentShips == g.opponentShips
      else g' == g
  {
  }

  lemma ClickOwnKeepsInvariant(g: Game, p: Pos)
    requires GameInv(g) && InBounds(p)
    ensures GameInv(ClickOwnBoard(g, p))
  {
    if !g.gameOver && g.playerTurn && g.phase == PlacingShips && g.selected.Some? {
      var n := g.selected.value;
      if CanPlace(g.playerBoard, p.row, p.col, Size(n), g.orientation) {
        AddShipKeepsInvariants(g.playerBoard, g.placedShips, n, p.row, p.col, g.orientation);
        var g' := ClickOwnBoard(g, p);
        if |g.placedShips| == 4 {
          assert g'.placedShips[4].hits == 0 && !IsSunk(g'.placedShips[4]);
          assert |Names(g.opponentShips)| == 5;
          FreshFleetAfloat(g.opponentShips);
        }
      }
    }
  }

  /** Rotating twice restores the game. */
  lemma RotateTwiceRestores(g: Game)
    ensures RotateShip(RotateShip(g)) == g
  {
  }

  /** Picking a ship whose button is enabled (it is not placed yet) and then
      clicking a cell either leaves the placed types as they were or adds
      exactly the picked type. */
  lemma PickThenPlace(g: Game, n: ShipName, p: Pos)
    requires GameInv(g) && g.phase == PlacingShips && InBounds(p)
    requires n !in Names(g.placedShips)
    ensures var g' := ClickOwnBoard(SelectShip(g, n), p);
      || Names(g'.placedShips) == Names(g.placedShips)
      || Names(g'.placedShips) == Names(g.placedShips) + [n]
  {
    var g1 := SelectShip(g, n);
    assert GameInv(g1);
    PlacementProgress(g1, p);
    if CanPlace(g1.playerBoard, p.row, p.col, Size(n), g1.orientation) {
      NamesAppend(g.placedShips, ShipRecord(n, ShipPositions(p.row, p.col, Size(n), g.orientation), 0));
    }
  }

  /** The player's shot: refused outside the battle, after the
      game, and while the computer is to move; a repeat shot changes nothing,
      the turn included; any other shot hands the turn to the computer. */
  lemma HumanShotTurn(g: Game, p: Pos)
    requires WellFormed(g.opponentBoard) && InBounds(p)
    ensures var m := ClickOpponentBoard(g, p);
      && (g.gameOver || g.phase != InBattle || !g.playerTurn ==> m == Move(g, None))
      && (m.outcome == Some(AlreadyShot) ==> m.game == g)
      && (m.outcome.Some? && m.outcome != Some(AlreadyShot) ==> !m.game.playerTurn && g.playerTurn)
      && (!g.gameOver && g.phase == InBattle && g.playerTurn ==>
            (m.outcome == Some(AlreadyShot) <==> Tried(At(g.opponentBoard, p))))
  {
  }

  /** The player wins with a shot exactly when the shot leaves every ship of
      the computer's fleet with hits equal to its length. */
  lemma PlayerWinsIffFleetSunk(g: Game, p: Pos)
    requires GameInv(g) && g.phase == InBattle && g.playerTurn && !g.gameOver && InBounds(p)
    ensures var m := ClickOpponentBoard(g, p);
      (m.game.gameOver && m.game.winner == PlayerWins) <==> AllSunk(m.game.opponentShips)
  {
    if !Tried(At(g.opponentBoard, p)) {
      OutcomeRule(g.opponentBoard, g.opponentShips, p);
    }
  }

  lemma ClickEnemyKeepsInvariant(g: Game, p: Pos)
    requires GameInv(g) && InBounds(p)
    ensures GameInv(ClickOpponentBoard(g, p).game)
  {
    if !g.gameOver && g.phase == InBattle && g.playerTurn && !Tried(At(g.opponentBoard, p)) {
      var b := g.opponentBoard;
      var f := g.opponentShips;
      StrikeKeepsConsistent(b, f, p);
      StrikeKeepsApart(b, f, p);
      OutcomeRule(b, f, p);
      SameNames(f, Strike(b, f, p).fleet);
    }
  }

  /** The computer wins with a shot exactly when the shot leaves every ship of
      the player's fleet with hits equal to its length; either way the turn
      returns to the player. */
  lemma ComputerWinsIffFleetSunk(g: Game, tape: seq<real>)
    requires GameInv(g) && g.phase == InBattle && !g.gameOver && ValidTape(tape)
    requires ComputerShot(g, tape).Some?
    ensures var m := ComputerShot(g, tape).value;
      && m.game.playerTurn
      && ((m.game.gameOver && m.game.winner == ComputerWins) <==> AllSunk(m.game.placedShips))
  {
    var t := ChooseTarget(g.playerBoard, g.placedShips, tape).value;
    OutcomeRule(g.playerBoard, g.placedShips, t);
  }

  /** The computer's shot as the game performs it keeps the invariant, also
      when it lands after the player's winning shot. */
  lemma ComputerShotKeepsInvariant(g: Game, tape: seq<real>)
    requires GameInv(g) && g.phase == InBattle && ValidTape(tape)
    requires ComputerShot(g, tape).Some?
    ensures GameInv(ComputerShot(g, tape).value.game)
  {
    RespondKeepsInvariant(g, ChooseTarget(g.playerBoard, g.placedShips, tape).value);
  }

  /** The computer's shot at any untried cell keeps the invariant. */
  lemma RespondKeepsInvariant(g: Game, t: Pos)
    requires GameInv(g) && g.phase == InBattle && InBounds(t) && !Tried(At(g.playerBoard, t))
    ensures GameInv(Respond(g, t).game)
  {
    var b := g.playerBoard;
    var f := g.placedShips;
    StrikeKeepsConsistent(b, f, t);
    StrikeKeepsApart(b, f, t);
    OutcomeRule(b, f, t);
    SameNames(f, Strike(b, f, t).fleet);
  }

  /** The corrected turn keeps the invariant too. */
  lemma ComputerTurnKeepsInvariant(g: Game, tape: seq<real>)
    requires GameInv(g) && g.phase == InBattle && ValidTape(tape)
    requires ComputerTurn(g, tape).Some?
    ensures GameInv(ComputerTurn(g, tape).value.game)
  {
    if !g.gameOver {
      ComputerShotKeepsInvariant(g, tape);
    }
  }

  /** Turns alternate: after a shot of the player that does not end the game,
      every further click on the computer's board is ignored until the
      computer's turn has run, and that turn gives the move back. */
  lemma TurnsAlternate(g: Game, p: Pos, q: Pos, tape: seq<real>)
    requires WellFormed(g.playerBoard) && WellFormed(g.opponentBoard)
    requires InBounds(p) && InBounds(q) && ValidTape(tape)
    requires var m := ClickOpponentBoard(g, p); m.outcome.Some? && m.outcome.value !in {AlreadyShot, Defeated}
    ensures var g1 := ClickOpponentBoard(g, p).game;
      && !g1.playerTurn && !g1.gameOver && g1.phase == InBattle
      && ClickOpponentBoard(g1, q) == Move(g1, None)
      && (ComputerShot(g1, tape).Some? ==> ComputerShot(g1, tape).value.game.playerTurn)
  {
  }

  /** Every event keeps the game invariant, from the first state on. */
  lemma StepKeepsInvariant(g: Game, e: Event)
    requires GameInv(g) && Admissible(e)
    ensures Step(g, e).Some? ==> GameInv(Step(g, e).value)
  {
    match e
    case Select(n) =>
    case Rotate =>
    case ClickOwn(p) => ClickOwnKeepsInvariant(g, p);
    case ClickEnemy(p) => ClickEnemyKeepsInvariant(g, p);
    case ComputerMove(t) =>
      if g.phase == InBattle && !g.playerTurn && ComputerShot(g, t).Some? {
        ComputerShotKeepsInvariant(g, t);
      }
    case PlayAgain(t) =>
  }

  /** A winning shot leaves the player's own board and fleet as they were. */
  lemma WinningShotState(g: Game, p: Pos)
    requires WellFormed(g.opponentBoard) && InBounds(p)
    requires ClickOpponentBoard(g, p).outcome == Some(Defeated)
    ensures var won := ClickOpponentBoard(g, p).game;
      && won.gameOver && won.winner == PlayerWins
      && won.playerBoard == g.playerBoard && won.placedShips == g.placedShips
  {
  }

  /** As written, a winning shot by the player does not stop the computer:
      its scheduled shot still lands on the player's board, the turn comes
      back to the player, and if that shot sinks the player's last ship the
      winner becomes the computer although the player won first. */
  lemma StaleGuardShootsAfterWin(g: Game, p: Pos, tape: seq<real>)
    requires WellFormed(g.playerBoard) && WellFormed(g.opponentBoard) && InBounds(p) && ValidTape(tape)
    requires ClickOpponentBoard(g, p).outcome == Some(Defeated)
    requires ChooseTarget(g.playerBoard, g.placedShips, tape).Some?
    ensures var won := ClickOpponentBoard(g, p).game;
      && won.gameOver && won.winner == PlayerWins
      && ComputerShot(won, tape).Some?
      && var after := ComputerShot(won, tape).value;
      && after.game.playerBoard != won.playerBoard
      && after.game.playerTurn
      && (after.outcome == Some(Defeated) ==> after.game.winner == ComputerWins)
  {
    WinningShotState(g, p);
  }

  /** A board in the endgame: the last cell of a Destroyer is left at (0, 0),
      its other cell (0, 1) is the only struck cell, and the cells (1, 1) and
      (0, 2) are already missed. */
  ghost predicate EndgameBoard(b: Board)
  {
    && WellFormed(b)
    && At(b, Pos(0, 0)) == Ship(Destroyer) && At(b, Pos(0, 1)) == Hit(Destroyer)
    && At(b, Pos(1, 1)) == Miss && At(b, Pos(0, 2)) == Miss
    && forall q :: StruckAt(b, q) ==> q == Pos(0, 1)
  }

  /** `q` is a struck cell of `b`. */
  ghost predicate StruckAt(b: Board, q: Pos)
  {
    WellFormed(b) && InBounds(q) && At(b, q).Hit?
  }

  /** One such board. */
  function Endgame(): (b: Board)
    ensures EndgameBoard(b)
  {
    var b1 := SetCell(EmptyBoard(), Pos(0, 0), Ship(Destroyer));
    var b2 := SetCell(b1, Pos(0, 1), Hit(Destroyer));
    var b3 := SetCell(b2, Pos(1, 1), Miss);
    SetCell(b3, Pos(0, 2), Miss)
  }

  /** Down to one Destroyer struck once. */
  function LastShip(): Fleet
  {
    [ShipRecord(Destroyer, [Pos(0, 0), Pos(0, 1)], 1)]
  }

  /** On an endgame board the struck cell (0, 1) is the one live cell. */
  lemma EndgameLive(b: Board, h: Pos)
    requires EndgameBoard(b) && InBounds(h)
    ensures IsLive(b, LastShip(), h) <==> h == Pos(0, 1)
  {
    assert Find(LastShip(), Destroyer) == Some(LastShip()[0]);
    if At(b, h).Hit? {
      assert StruckAt(b, h);
    }
  }

  /** On an endgame board a follow-up candidate can only be (0, 0). */
  lemma EndgameOnlyCandidate(b: Board, q: Pos)
    requires EndgameBoard(b) && q in Candidates(b, LastShip())
    ensures q == Pos(0, 0)
  {
    var h :| InBounds(h) && IsLive(b, LastShip(), h) && Adjacent(h, q);
    EndgameLive(b, h);
  }

  /** On an endgame board (0, 0) is the one follow-up candidate. */
  lemma EndgameCandidates(b: Board)
    requires EndgameBoard(b)
    ensures var qs := Candidates(b, LastShip());
      Pos(0, 0) in qs && forall q :: q in qs ==> q == Pos(0, 0)
  {
    EndgameLive(b, Pos(0, 1));
    assert Adjacent(Pos(0, 1), Pos(0, 0));
    assert NextToLive(b, LastShip(), Pos(0, 0));
    forall q | q in Candidates(b, LastShip())
      ensures q == Pos(0, 0)
    {
      EndgameOnlyCandidate(b, q);
    }
  }

  /** On an endgame board the computer's only follow-up is (0, 0). */
  lemma EndgameTarget(b: Board)
    requires EndgameBoard(b)
    ensures ChooseTarget(b, LastShip(), [0.0]) == Some(Pos(0, 0))
  {
    var f := LastShip();
    EndgameLive(b, Pos(0, 1));
    assert Pos(0, 1) in LiveHits(b, f);
    EndgameCandidates(b);
    var qs := Candidates(b, f);
    assert qs[Scale(0.0, |qs|)] in qs;
  }

  /** Striking (0, 0) on an endgame board sinks the last ship of the fleet. */
  lemma EndgameStrike(b: Board)
    requires EndgameBoard(b)
    ensures Strike(b, LastShip(), Pos(0, 0)).outcome == Defeated
  {
    assert AllSunk(RecordHit(LastShip(), Destroyer));
  }

  /** Both sides down to one Destroyer struck once on the endgame board `b`,
      the player to shoot. */
  function EndgameState(b: Board): Game
  {
    Game(InBattle, None, Horizontal, b, b, LastShip(), LastShip(), false, Undecided, true)
  }

  /** In the endgame the player's shot at (0, 0) wins, leaving the player's
      side as it was. */
  lemma EndgameWin(b: Board)
    requires EndgameBoard(b)
    ensures var m := ClickOpponentBoard(EndgameState(b), Pos(0, 0));
      && m.outcome == Some(Defeated) && m.game.gameOver && m.game.winner == PlayerWins
      && m.game.playerBoard == b && m.game.placedShips == LastShip()
  {
    EndgameStrike(b);
  }

  /** What the stale-guard run needs from the endgame: the player's winning
      shot leaves the player's side alone, and the computer's follow-up at
      (0, 0) sinks the player's last ship. */
  lemma EndgameFacts(b: Board)
    requires EndgameBoard(b)
    ensures ClickOpponentBoard(EndgameState(b), Pos(0, 0)).outcome == Some(Defeated)
    ensures var g := EndgameState(b);
      && ChooseTarget(g.playerBoard, g.placedShips, [0.0]) == Some(Pos(0, 0))
      && Strike(g.playerBoard, g.placedShips, Pos(0, 0)).outcome == Defeated
  {
    EndgameWin(b);
    EndgameTarget(b);
    EndgameStrike(b);
  }

  /** As written, when the player's shot wins and the computer's pending
      shot then sinks the player's last ship, the winner flips to the
      computer. */
  lemma WinnerFlips(g: Game, p: Pos, tape: seq<real>, t: Pos)
    requires WellFormed(g.playerBoard) && WellFormed(g.opponentBoard) && InBounds(p) && ValidTape(tape)
    requires ClickOpponentBoard(g, p).outcome == Some(Defeated)
    requires ChooseTarget(g.playerBoard, g.placedShips, tape) == Some(t)
    requires Strike(g.playerBoard, g.placedShips, t).outcome == Defeated
    ensures var won := ClickOpponentBoard(g, p).game;
      && won.gameOver && won.winner == PlayerWins
      && ComputerShot(won, tape).Some?
      && ComputerShot(won, tape).value.game.winner == ComputerWins
  {
    WinningShotState(g, p);
  }

  /** A concrete input for `WinnerFlips`: on the board `Endgame()` the
      player's shot at (0, 0) sinks the computer's last ship, the computer's
      one draw 0.0 then follows up the live hit at (0, 1) at its only untried
      neighbour (0, 0), and that shot sinks the player's last ship. */
  lemma StaleGuardWitness()
    ensures var g := EndgameState(Endgame());
      && ClickOpponentBoard(g, Pos(0, 0)).outcome == Some(Defeated)
      && ChooseTarget(g.playerBoard, g.placedShips, [0.0]) == Some(Pos(0, 0))
      && Strike(g.playerBoard, g.placedShips, Pos(0, 0)).outcome == Defeated
  {
    EndgameFacts(Endgame());
  }

  /** Corrected: once the player has won, the computer's turn fires no shot
      and changes nothing; the player stays the winner. */
  lemma NoShotAfterWin(g: Game, p: Pos, tape: seq<real>)
    requires WellFormed(g.playerBoard) && WellFormed(g.opponentBoard) && InBounds(p) && ValidTape(tape)
    requires ClickOpponentBoard(g, p).outcome == Some(Defeated)
    ensures var won := ClickOpponentBoard(g, p).game;
      && won.winner == PlayerWins
      && ComputerTurn(won, tape) == Some(Move(won, None))
  {
  }

}

=== FILE: dice.dfy ===
/** Random draws. The game draws reals in [0, 1) and scales them down to an
    index with `floor(u * n)`; here the draws are handed in as a tape. */
module Dice {

  predicate Unit(u: real)
  {
    0.0 <= u < 1.0
  }

  /** Every draw on the tape lies in [0, 1). */
  predicate ValidTape(t: seq<real>)
  {
    forall i :: 0 <= i < |t| ==> Unit(t[i])
  }

  /** `floor(u * n)`: a draw scaled to an index below `n`. */
  function Scale(u: real, n: nat): (k: nat)
    requires Unit(u) && n > 0
    ensures k < n
  {
    var x := u * n as real;
    assert 0.0 <= x < n as real;
    x.Floor
  }

  /** Every index below `n` is the scaled value of some draw. */
  lemma ScaleReaches(k: nat, n: nat)
    requires k < n
    ensures Unit(k as real / n as real) && Scale(k as real / n as real, n) == k
  {
    var u := k as real / n as real;
    assert u * n as real == k as real;
  }

  /** The draw `k / n`, which scales back to the index `k`. */
  function Draw(k: nat, n: nat): (u: real)
    requires k < n
    ensures Unit(u) && Scale(u, n) == k
  {
    ScaleReaches(k, n);
    k as real / n as real
  }

}

=== FILE: fleets.dfy ===
/** A side's fleet: one record per placed ship with its cells and its hit
    counter, and the invariant tying the records to the board. */
module Fleets {

  import opened Options
  import opened Catalog
  import opened Grid
  import opened Placement

  datatype ShipRecord = ShipRecord(name: ShipName, positions: seq<Pos>, hits: nat)

  /** Ships in the order they were placed. */
  type Fleet = seq<ShipRecord>

  /** A ship is sunk once its hits reach the catalog length of its type. */
  predicate IsSunk(s: ShipRecord)
  {
    s.hits == Size(s.name)
  }

  /** Every ship of the fleet is sunk (vacuously so for an empty fleet). */
  predicate AllSunk(f: Fleet)
  {
    forall k :: 0 <= k < |f| ==> IsSunk(f[k])
  }

  /** The ships' names, in fleet order. */
  function Names(f: Fleet): seq<ShipName>
  {
    seq(|f|, k requires 0 <= k < |f| => f[k].name)
  }

  /** Appending a record appends its name. */
  lemma NamesAppend(f: Fleet, s: ShipRecord)
    ensures Names(f + [s]) == Names(f) + [s.name]
  {
  }

  /** In a fleet with distinct names, a name picks out one record. */
  lemma UniqueName(f: Fleet, i: int, j: int)
    requires Distinct(Names(f)) && 0 <= i < |f| && 0 <= j < |f| && f[i].name == f[j].name
    ensures i == j
  {
    assert Names(f)[i] == Names(f)[j];
  }

  predicate HasShip(f: Fleet, n: ShipName)
  {
    exists k :: 0 <= k < |f| && f[k].name == n
  }

  /** The first record named `n`, if any. */
  function Find(f: Fleet, n: ShipName): (r: Option<ShipRecord>)
    ensures r.None? <==> !HasShip(f, n)
    ensures r.Some? ==> exists k :: (0 <= k < |f| && f[k] == r.value && r.value.name == n
                                     && forall j :: 0 <= j < k ==> f[j].name != n)
  {
    if f == [] then None
    else if f[0].name == n then Some(f[0])
    else
      var r := Find(f[1..], n);
      assert forall k :: 0 <= k < |f| - 1 ==> f[1..][k] == f[k + 1];
      r
  }

  /** How many of the cells `ps` have been struck. */
  function HitCount(b: Board, ps: seq<Pos>): (k: nat)
    requires WellFormed(b) && forall i :: 0 <= i < |ps| ==> InBounds(ps[i])
    ensures k <= |ps|
  {
    if ps == [] then 0 else (if At(b, ps[0]).Hit? then 1 else 0) + HitCount(b, ps[1..])
  }

  /** Records and board agree: names are unique; each record lists `Size`
      distinct cells of the board that carry its name, and its counter is the
      number of those cells struck; every ship cell of the board belongs to a
      record. */
  ghost predicate Consistent(b: Board, f: Fleet)
  {
    && WellFormed(b)
    && Distinct(Names(f))
    && (forall k :: 0 <= k < |f| ==> RecordFits(b, f[k]))
    && (forall q :: InBounds(q) && Named(At(b, q)) ==> Owned(f, q, At(b, q).name))
  }

  ghost predicate RecordFits(b: Board, s: ShipRecord)
    requires WellFormed(b)
  {
    && |s.positions| == Size(s.name)
    && Distinct(s.positions)
    && (forall i :: 0 <= i < |s.positions| ==> InBounds(s.positions[i]))
    && (forall i :: 0 <= i < |s.positions| ==> Named(At(b, s.positions[i])) && At(b, s.positions[i]).name == s.name)
    && s.hits == HitCount(b, s.positions)
  }

  /** Some record named `n` lists cell `q`. */
  ghost predicate Owned(f: Fleet, q: Pos, n: ShipName)
  {
    exists k :: 0 <= k < |f| && f[k].name == n && q in f[k].positions
  }

  /** HitCount reads only the listed cells. */
  lemma {:induction false} HitCountFrame(b: Board, b': Board, ps: seq<Pos>)
    requires WellFormed(b) && WellFormed(b') && forall i :: 0 <= i < |ps| ==> InBounds(ps[i])
    requires forall i :: 0 <= i < |ps| ==> At(b', ps[i]) == At(b, ps[i])
    ensures HitCount(b', ps) == HitCount(b, ps)
    decreases |ps|
  {
    if ps != [] {
      HitCountFrame(b, b', ps[1..]);
    }
  }

  /** Striking one listed, unstruck cell raises the count by exactly one. */
  lemma {:induction false} HitCountStrike(b: Board, b': Board, ps: seq<Pos>, p: Pos)
    requires WellFormed(b) && WellFormed(b') && forall i :: 0 <= i < |ps| ==> InBounds(ps[i])
    requires Distinct(ps) && p in ps
    requires InBounds(p) && !At(b, p).Hit? && At(b', p).Hit?
    requires forall q :: InBounds(q) && q != p ==> At(b', q) == At(b, q)
    ensures HitCount(b', ps) == HitCount(b, ps) + 1
    decreases |ps|
  {
    if ps[0] == p {
      assert p !in ps[1..];
      HitCountFrame(b, b', ps[1..]);
    } else {
      HitCountStrike(b, b', ps[1..], p);
    }
  }

  /** A count equal to the number of cells means every cell is struck. */
  lemma {:induction false} FullCountAllHit(b: Board, ps: seq<Pos>)
    requires WellFormed(b) && forall i :: 0 <= i < |ps| ==> InBounds(ps[i])
    requires HitCount(b, ps) == |ps|
    ensures forall i :: 0 <= i < |ps| ==> At(b, ps[i]).Hit?
    decreases |ps|
  {
    if ps != [] {
      FullCountAllHit(b, ps[1..]);
      assert forall i :: 1 <= i < |ps| ==> ps[i] == ps[1..][i - 1];
    }
  }

  /** No unstruck cell among `ps` means a count of zero. */
  lemma {:induction false} NoneHitCountZero(b: Board, ps: seq<Pos>)
    requires WellFormed(b) && forall i :: 0 <= i < |ps| ==> InBounds(ps[i])
    requires forall i :: 0 <= i < |ps| ==> !At(b, ps[i]).Hit?
    ensures HitCount(b, ps) == 0
    decreases |ps|
  {
    if ps != [] {
      NoneHitCountZero(b, ps[1..]);
    }
  }

  /** With consistent records, no ship has taken more hits than its length. */
  lemma HitsBounded(b: Board, f: Fleet)
    requires Consistent(b, f)
    ensures forall k :: 0 <= k < |f| ==> f[k].hits <= Size(f[k].name)
  {
    forall k | 0 <= k < |f|
      ensures f[k].hits <= Size(f[k].name)
    {
      assert RecordFits(b, f[k]);
    }
  }

  /** With consistent records, a fully sunk fleet leaves no unstruck ship cell. */
  lemma AllSunkNoShipLeft(b: Board, f: Fleet)
    requires Consistent(b, f) && AllSunk(f)
    ensures forall q :: InBounds(q) ==> !At(b, q).Ship?
  {
    forall q | InBounds(q)
      ensures !At(b, q).Ship?
    {
      if At(b, q).Ship? {
        var k :| 0 <= k < |f| && f[k].name == At(b, q).name && q in f[k].positions;
        assert RecordFits(b, f[k]);
        FullCountAllHit(b, f[k].positions);
      }
    }
  }

  /** Places a ship the rule accepts and records it with no hits. */
  ghost function AddShip(b: Board, f: Fleet, n: ShipName, row: int, col: int, o: Orientation): (r: (Board, Fleet))
    requires WellFormed(b) && Anchored(row, col) && CanPlace(b, row, col, Size(n), o)
    ensures WellFormed(r.0)
    ensures r.1 == f + [ShipRecord(n, ShipPositions(row, col, Size(n), o), 0)]
    ensures forall q :: InBounds(q) ==> At(r.0, q) == if q in ShipPositions(row, col, Size(n), o) then Ship(n) else At(b, q)
  {
    var (b', ps) := PlaceShip(b, row, col, Size(n), o, n);
    (b', f + [ShipRecord(n, ps, 0)])
  }

  /** The empty board with no ships is consistent and trivially apart. */
  lemma EmptyBoardSound()
    ensures Consistent(EmptyBoard(), []) && NoTouch(EmptyBoard())
  {
    assert Names([]) == [];
  }

  /** Records whose cells a write leaves alone still fit the new board. */
  lemma RecordsKept(b: Board, b': Board, f: Fleet, ps: seq<Pos>)
    requires Consistent(b, f) && WellFormed(b')
    requires forall q :: InBounds(q) && q !in ps ==> At(b', q) == At(b, q)
    requires forall q :: q in ps ==> InBounds(q) && At(b, q) == Empty
    ensures forall k :: 0 <= k < |f| ==> RecordFits(b', f[k])
  {
    forall k | 0 <= k < |f|
      ensures RecordFits(b', f[k])
    {
      assert RecordFits(b, f[k]);
      var qs := f[k].positions;
      forall i | 0 <= i < |qs|
        ensures At(b', qs[i]) == At(b, qs[i])
      {
        assert Named(At(b, qs[i]));
      }
      HitCountFrame(b, b', qs);
    }
  }

  /** After a write confined to `ps`, every ship cell still has an owner once
      a record of `ps` named `n` is appended. */
  lemma OwnersKept(b: Board, b': Board, f: Fleet, n: ShipName, ps: seq<Pos>)
    requires Consistent(b, f) && WellFormed(b')
    requires forall q :: InBounds(q) ==> At(b', q) == if q in ps then Ship(n) else At(b, q)
    ensures forall q :: InBounds(q) && Named(At(b', q)) ==> Owned(f + [ShipRecord(n, ps, 0)], q, At(b', q).name)
  {
    var f' := f + [ShipRecord(n, ps, 0)];
    forall q | InBounds(q) && Named(At(b', q))
      ensures Owned(f', q, At(b', q).name)
    {
      if q in ps {
        assert f'[|f|].name == n && q in f'[|f|].positions;
      } else {
        var k :| 0 <= k < |f| && f[k].name == At(b, q).name && q in f[k].positions;
        assert f'[k] == f[k];
      }
    }
  }

  /** After an accepted ship is added, every record, old and new, fits the board. */
  lemma AddShipRecordsFit(b: Board, f: Fleet, n: ShipName, row: int, col: int, o: Orientation)
    requires WellFormed(b) && Anchored(row, col) && CanPlace(b, row, col, Size(n), o)
    requires Consistent(b, f)
    ensures var r := AddShip(b, f, n, row, col, o);
      forall k :: 0 <= k < |r.1| ==> RecordFits(r.0, r.1[k])
  {
    var (b', f') := AddShip(b, f, n, row, col, o);
    var ps := ShipPositions(row, col, Size(n), o);
    CanPlaceInBounds(b, row, col, Size(n), o);
    PositionsOnBoard(row, col, Size(n), o);
    RecordsKept(b, b', f, ps);
    NoneHitCountZero(b', ps);
    assert RecordFits(b', f'[|f|]);
    assert forall k :: 0 <= k < |f| ==> f'[k] == f[k];
  }

  /** Adding an accepted ship of a type not yet in the fleet keeps the records
      consistent with the board. */
  lemma AddShipKeepsConsistent(b: Board, f: Fleet, n: ShipName, row: int, col: int, o: Orientation)
    requires WellFormed(b) && Anchored(row, col) && CanPlace(b, row, col, Size(n), o)
    requires Consistent(b, f) && n !in Names(f)
    ensures var r := AddShip(b, f, n, row, col, o); Consistent(r.0, r.1)
  {
    var (b', f') := AddShip(b, f, n, row, col, o);
    AddShipRecordsFit(b, f, n, row, col, o);
    NamesAppend(f, f'[|f|]);
    OwnersKept(b, b', f, n, ShipPositions(row, col, Size(n), o));
  }

  /** Adding an accepted ship of a type not yet in the fleet keeps the records
      consistent with the board and keeps ships apart. */
  lemma AddShipKeepsInvariants(b: Board, f: Fleet, n: ShipName, row: int, col: int, o: Orientation)
    requires WellFormed(b) && Anchored(row, col) && CanPlace(b, row, col, Size(n), o)
    requires Consistent(b, f) && NoTouch(b) && n !in Names(f)
    ensures var r := AddShip(b, f, n, row, col, o); Consistent(r.0, r.1) && NoTouch(r.0)
  {
    PlaceKeepsApart(b, row, col, Size(n), o, n);
    AddShipKeepsConsistent(b, f, n, row, col, o);
  }

}

=== FILE: generator.dfy ===
/** The computer's fleet: every catalog ship, in catalog order, placed at a
    random anchor and orientation, retried until the placement rule accepts. */
module Generator {

  import opened Options
  import opened Catalog
  import opened Grid
  import opened Placement
  import opened Fleets
  import opened Dice

  /** One attempt: a draw below 0.5 means horizontal; the next two draws give
      the anchor's row and column. */
  function Attempt(tape: seq<real>): (r: (Orientation, int, int))
    requires ValidTape(tape) && |tape| >= 3
    ensures Anchored(r.1, r.2)
    ensures r.0 == Horizontal <==> tape[0] < 0.5
  {
    (if tape[0] < 0.5 then Horizontal else Vertical, Scale(tape[1], N), Scale(tape[2], N))
  }

  /** Placing the first pending ship keeps the invariants and the names. */
  lemma DeployOne(b: Board, f: Fleet, pending: seq<ShipName>, row: int, col: int, o: Orientation)
    requires Consistent(b, f) && NoTouch(b) && Distinct(Names(f) + pending) && |pending| > 0
    requires Anchored(row, col) && CanPlace(b, row, col, Size(pending[0]), o)
    ensures var r := AddShip(b, f, pending[0], row, col, o);
      && Consistent(r.0, r.1) && NoTouch(r.0)
      && Names(r.1) + pending[1..] == Names(f) + pending
      && Distinct(Names(r.1) + pending[1..])
  {
    var n := pending[0];
    PendingIsNew(Names(f), pending);
    AddShipKeepsInvariants(b, f, n, row, col, o);
    NamesAppend(f, ShipRecord(n, ShipPositions(row, col, Size(n), o), 0));
  }

  /** With no name repeated, the next pending ship is not yet in the fleet. */
  lemma PendingIsNew(names: seq<ShipName>, pending: seq<ShipName>)
    requires Distinct(names + pending) && |pending| > 0
    ensures pending[0] !in names
    ensures names + pending == names + [pending[0]] + pending[1..]
  {
    var all := names + pending;
    assert all[|names|] == pending[0];
    forall i | 0 <= i < |names|
      ensures names[i] != pending[0]
    {
      assert all[i] == names[i];
    }
  }

  /** `f'` is `f` followed by the unhit ships `pending`, in order. */
  predicate Extends(f: Fleet, pending: seq<ShipName>, f': Fleet)
  {
    && Names(f') == Names(f) + pending
    && |f'| == |f| + |pending| && f'[..|f|] == f
    && forall k :: |f| <= k < |f'| ==> f'[k].hits == 0
  }

  /** `(b', f')` is `f` grown by the unhit ships `pending`, in order, on a
      board the records agree with and where no two ships touch. */
  ghost predicate Grown(f: Fleet, pending: seq<ShipName>, b': Board, f': Fleet)
  {
    Consistent(b', f') && NoTouch(b') && Extends(f, pending, f')
  }

  lemma GrownByNothing(b: Board, f: Fleet)
    requires Consistent(b, f) && NoTouch(b)
    ensures Grown(f, [], b, f)
  {
    assert Names(f) + [] == Names(f);
    assert f[..|f|] == f;
  }

  /** Growing by one unhit ship and then by the rest is growing by all. */
  lemma ExtendsByOneMore(f: Fleet, s: ShipRecord, pending: seq<ShipName>, f': Fleet)
    requires s.hits == 0 && |pending| > 0 && s.name == pending[0]
    requires Extends(f + [s], pending[1..], f')
    ensures Extends(f, pending, f')
  {
    NamesAppend(f, s);
    assert Names(f) + pending == Names(f) + [s.name] + pending[1..];
    assert f'[..|f|] == f'[..|f| + 1][..|f|];
    assert f'[|f|] == f'[..|f| + 1][|f|];
  }

  /** Places the `pending` ships in order, consuming three draws per attempt
      and retrying a ship until an attempt is accepted; `None` when the tape
      runs out first. New ships start with no hits; the ships already on the
      board are kept as they are. */
  ghost function Deploy(b: Board, f: Fleet, pending: seq<ShipName>, tape: seq<real>): (r: Option<(Board, Fleet)>)
    requires Consistent(b, f) && NoTouch(b) && ValidTape(tape) && Distinct(Names(f) + pending)
    ensures r.Some? ==> Grown(f, pending, r.value.0, r.value.1)
    decreases |tape|
  {
    if pending == [] then
      GrownByNothing(b, f);
      Some((b, f))
    else if |tape| < 3 then None
    else
      var (o, row, col) := Attempt(tape);
      if CanPlace(b, row, col, Size(pending[0]), o) then
        var (b', f') := AddShip(b, f, pending[0], row, col, o);
        DeployOne(b, f, pending, row, col, o);
        var r := Deploy(b', f', pending[1..], tape[3..]);
        if r.Some? then
          ExtendsByOneMore(f, ShipRecord(pending[0], ShipPositions(row, col, Size(pending[0]), o), 0), pending, r.value.1);
          r
        else r
      else Deploy(b, f, pending, tape[3..])
  }

  /** The computer's fleet on a fresh board: when the draws suffice, every
      catalog ship once, in catalog order, unhit, consistent with the board,
      and no two ships touching. */
  ghost function GenerateFleet(tape: seq<real>): (r: Option<(Board, Fleet)>)
    requires ValidTape(tape)
    ensures r.Some? ==>
      && Consistent(r.value.0, r.value.1) && NoTouch(r.value.0)
      && Names(r.value.1) == Order
      && forall k :: 0 <= k < |r.value.1| ==> r.value.1[k].hits == 0
  {
    var b := EmptyBoard();
    EmptyBoardSound();
    OrderIsCatalog();
    assert Names([]) + Order == Order;
    Deploy(b, [], Order, tape)
  }

  /** The three draws that make an attempt at exactly (o, row, col). */
  function AttemptDraws(row: int, col: int, o: Orientation): (t: seq<real>)
    requires Anchored(row, col)
    ensures |t| == 3 && ValidTape(t) && Attempt(t) == (o, row, col)
  {
    [if o == Horizontal then 0.0 else 0.5, Draw(row, N), Draw(col, N)]
  }

  /** An accepted attempt is committed: the ship is placed there and the
      rest of the tape deploys the remaining ships on the new board. */
  lemma DeployCommits(b: Board, f: Fleet, pending: seq<ShipName>, row: int, col: int, o: Orientation, rest: seq<real>)
    requires Consistent(b, f) && NoTouch(b) && ValidTape(rest) && Distinct(Names(f) + pending) && |pending| > 0
    requires Anchored(row, col) && CanPlace(b, row, col, Size(pending[0]), o)
    ensures var r := AddShip(b, f, pending[0], row, col, o);
      && ValidTape(AttemptDraws(row, col, o) + rest)
      && Consistent(r.0, r.1) && NoTouch(r.0) && Distinct(Names(r.1) + pending[1..])
      && Deploy(b, f, pending, AttemptDraws(row, col, o) + rest) == Deploy(r.0, r.1, pending[1..], rest)
  {
    var tape := AttemptDraws(row, col, o) + rest;
    assert tape[..3] == AttemptDraws(row, col, o) && tape[3..] == rest;
    assert Attempt(tape) == Attempt(tape[..3]);
    DeployOne(b, f, pending, row, col, o);
  }

  /** A rejected attempt is retried for the same ship with the next draws. */
  lemma DeployRetries(b: Board, f: Fleet, pending: seq<ShipName>, row: int, col: int, o: Orientation, rest: seq<real>)
    requires Consistent(b, f) && NoTouch(b) && ValidTape(rest) && Distinct(Names(f) + pending) && |pending| > 0
    requires Anchored(row, col) && !CanPlace(b, row, col, Size(pending[0]), o)
    ensures ValidTape(AttemptDraws(row, col, o) + rest)
    ensures Deploy(b, f, pending, AttemptDraws(row, col, o) + rest) == Deploy(b, f, pending, rest)
  {
    var tape := AttemptDraws(row, col, o) + rest;
    assert tape[..3] == AttemptDraws(row, col, o) && tape[3..] == rest;
    assert Attempt(tape) == Attempt(tape[..3]);
  }

}

=== FILE: grid.dfy ===
/** The 10x10 board: cells, coordinates, bounds, adjacency, reads and writes. */
module Grid {

  import opened Options
  import opened Catalog

  /** Side of the square board. */
  const N: int := 10

  /** One square of a board. `Ship(n)` is an unstruck part of ship `n`,
      `Hit(n)` a struck one; `Miss` is a shot into open water. */
  datatype Cell = Empty | Ship(name: ShipName) | Hit(name: ShipName) | Miss

  datatype Pos = Pos(row: int, col: int)

  /** Rows of cells; a board in play is `WellFormed`. */
  type Board = seq<seq<Cell>>

  predicate WellFormed(b: Board)
  {
    |b| == N && forall r :: 0 <= r < N ==> |b[r]| == N
  }

  predicate InBounds(p: Pos)
  {
    0 <= p.row < N && 0 <= p.col < N
  }

  /** `q` is `p` itself or one of its 8 neighbours (diagonals included). */
  predicate Near(p: Pos, q: Pos)
  {
    -1 <= q.row - p.row <= 1 && -1 <= q.col - p.col <= 1
  }

  /** `q` is one of the 4 orthogonal neighbours of `p`. */
  predicate Adjacent(p: Pos, q: Pos)
  {
    (q.row == p.row && (q.col == p.col - 1 || q.col == p.col + 1))
    || (q.col == p.col && (q.row == p.row - 1 || q.row == p.row + 1))
  }

  function At(b: Board, p: Pos): Cell
    requires WellFormed(b) && InBounds(p)
  {
    b[p.row][p.col]
  }

  /** A cell already shot at, which no shot may target again. */
  predicate Tried(c: Cell)
  {
    c.Hit? || c.Miss?
  }

  /** A cell that belongs to a ship, struck or not. */
  predicate Named(c: Cell)
  {
    c.Ship? || c.Hit?
  }

  /** The all-empty board both sides start from. */
  function EmptyBoard(): (b: Board)
    ensures WellFormed(b)
    ensures forall q :: InBounds(q) ==> At(b, q) == Empty
  {
    seq(N, _ => seq(N, _ => Empty))
  }

  /** The board with the one cell at `p` replaced by `c`. */
  function SetCell(b: Board, p: Pos, c: Cell): (r: Board)
    requires WellFormed(b) && InBounds(p)
    ensures WellFormed(r)
    ensures At(r, p) == c
    ensures forall q :: InBounds(q) && q != p ==> At(r, q) == At(b, q)
  {
    b[p.row := b[p.row][p.col := c]]
  }

}

=== FILE: options.dfy ===
/** An optional value, used where the game has "nothing" to report:
    a ship name that is not in a fleet, a random draw that did not settle. */
module Options {

  datatype Option<+T> = None | Some(value: T)

}

=== FILE: placement.dfy ===
/** Ship geometry, the placement rule and the write that puts a ship on a board. */
module Placement {

  import opened Catalog
  import opened Grid

  /** The `i`-th cell of a ship anchored at (row, col): one column further
      per step when horizontal, one row further when vertical. */
  function Along(row: int, col: int, i: int, o: Orientation): Pos
  {
    if o == Horizontal then Pos(row, col + i) else Pos(row + i, col)
  }

  /** The cells a ship occupies, listed from its anchor outwards; built one
      cell at a time as the game's loop pushes them. */
  function ShipPositions(row: int, col: int, size: nat, o: Orientation): (ps: seq<Pos>)
    ensures |ps| == size
    ensures size > 0 ==> ps[0] == Pos(row, col)
    ensures forall i :: 0 <= i < size ==> ps[i] == Along(row, col, i, o)
  {
    if size == 0 then [] else ShipPositions(row, col, size - 1, o) + [Along(row, col, size - 1, o)]
  }

  /** The ship does not run off the far edge of the board along its axis. */
  predicate Fits(row: int, col: int, size: nat, o: Orientation)
  {
    if o == Horizontal then col + size <= N else row + size <= N
  }

  /** `p` and every in-bounds 8-neighbour of `p` is empty water. */
  ghost predicate Clear(b: Board, p: Pos)
    requires WellFormed(b)
  {
    forall q :: InBounds(q) && Near(p, q) ==> At(b, q) == Empty
  }

  /** The placement rule: the ship fits, and none of its cells is occupied or
      touches an occupied cell, diagonals included. */
  ghost predicate CanPlace(b: Board, row: int, col: int, size: nat, o: Orientation)
    requires WellFormed(b)
  {
    var ps := ShipPositions(row, col, size, o);
    Fits(row, col, size, o) && forall i :: 0 <= i < |ps| ==> Clear(b, ps[i])
  }

  /** The anchor is a cell of the board, as every caller guarantees: anchors
      come from a clicked cell or from a draw in [0, 10). */
  predicate Anchored(row: int, col: int)
  {
    0 <= row < N && 0 <= col < N
  }

  /** The geometric facts: a ship has exactly `size` cells, starts at its
      anchor, never lists a cell twice, and lies on the board whenever it fits. */
  lemma PositionsOnBoard(row: int, col: int, size: nat, o: Orientation)
    requires Anchored(row, col) && Fits(row, col, size, o)
    ensures var ps := ShipPositions(row, col, size, o);
      |ps| == size && Distinct(ps) && forall i :: 0 <= i < size ==> InBounds(ps[i])
  {
  }

  /** An accepted ship lies on the board, with the bound on the axis it extends along. */
  lemma CanPlaceInBounds(b: Board, row: int, col: int, size: nat, o: Orientation)
    requires WellFormed(b) && Anchored(row, col) && CanPlace(b, row, col, size, o)
    ensures o == Horizontal ==> col + size <= N
    ensures o == Vertical ==> row + size <= N
    ensures forall p :: p in ShipPositions(row, col, size, o) ==> InBounds(p) && At(b, p) == Empty
  {
    var ps := ShipPositions(row, col, size, o);
    forall p | p in ps
      ensures InBounds(p) && At(b, p) == Empty
    {
      var i :| 0 <= i < |ps| && ps[i] == p;
      assert Clear(b, ps[i]);
      assert Near(p, p);
    }
  }

  /** The inner two loops of the placement check: the 3x3 block around `p`,
      row by row, stopping at the first occupied cell on the board. */
  method BlockClear(b: Board, p: Pos) returns (ok: bool)
    requires WellFormed(b) && InBounds(p)
    ensures ok <==> Clear(b, p)
  {
    var dr := -1;
    while dr <= 1
      invariant -1 <= dr <= 2
      invariant forall q :: InBounds(q) && Near(p, q) && q.row < p.row + dr ==> At(b, q) == Empty
    {
      var dc := -1;
      while dc <= 1
        invariant -1 <= dc <= 2
        invariant forall q :: InBounds(q) && q.row == p.row + dr && p.col - 1 <= q.col < p.col + dc ==> At(b, q) == Empty
      {
        var q := Pos(p.row + dr, p.col + dc);
        if InBounds(q) && At(b, q) != Empty {
          assert Near(p, q);
          return false;
        }
        dc := dc + 1;
      }
      dr := dr + 1;
    }
    return true;
  }

  /** The placement check as the game runs it: the edge test, then for each
      ship cell the cell itself and its 3x3 neighbourhood, stopping at the
      first occupied cell. It decides exactly `CanPlace`. */
  method CanPlaceShip(b: Board, row: int, col: int, size: nat, o: Orientation) returns (ok: bool)
    requires WellFormed(b) && Anchored(row, col)
    ensures ok <==> CanPlace(b, row, col, size, o)
  {
    if !Fits(row, col, size, o) {
      return false;
    }
    var ps := ShipPositions(row, col, size, o);
    PositionsOnBoard(row, col, size, o);
    var i := 0;
    while i < size
      invariant 0 <= i <= size
      invariant forall j :: 0 <= j < i ==> Clear(b, ps[j])
    {
      var p := Along(row, col, i, o);
      assert p == ps[i];
      if At(b, p) != Empty {
        assert Near(p, p);
        return false;
      }
      var clear := BlockClear(b, p);
      if !clear {
        return false;
      }
      i := i + 1;
    }
    return true;
  }

  /** Writes `c` into every cell listed in `ps`, first to last. */
  function WriteAll(b: Board, ps: seq<Pos>, c: Cell): (r: Board)
    requires WellFormed(b)
    requires forall i :: 0 <= i < |ps| ==> InBounds(ps[i])
    ensures WellFormed(r)
    ensures forall q :: InBounds(q) ==> At(r, q) == if q in ps then c else At(b, q)
    decreases |ps|
  {
    if ps == [] then b else WriteAll(SetCell(b, ps[0], c), ps[1..], c)
  }

  /** Puts ship `name` on the board without re-checking the rule: exactly the
      ship's cells become `Ship(name)`, every other cell is unchanged, and the
      cells written are returned. */
  function PlaceShip(b: Board, row: int, col: int, size: nat, o: Orientation, name: ShipName): (r: (Board, seq<Pos>))
    requires WellFormed(b) && Anchored(row, col) && Fits(row, col, size, o)
    ensures WellFormed(r.0)
    ensures |r.1| == size && forall i :: 0 <= i < size ==> r.1[i] == Along(row, col, i, o)
    ensures forall q :: InBounds(q) && q in r.1 ==> At(r.0, q) == Ship(name)
    ensures forall q :: InBounds(q) && q !in r.1 ==> At(r.0, q) == At(b, q)
  {
    var ps := ShipPositions(row, col, size, o);
    PositionsOnBoard(row, col, size, o);
    (WriteAll(b, ps, Ship(name)), ps)
  }

  /** Cells of different ships are never 8-adjacent. */
  ghost predicate NoTouch(b: Board)
    requires WellFormed(b)
  {
    forall p, q :: InBounds(p) && InBounds(q) && Near(p, q) && Named(At(b, p)) && Named(At(b, q))
      ==> At(b, p).name == At(b, q).name
  }

  /** Placing only ships the rule accepts keeps ships apart. */
  lemma PlaceKeepsApart(b: Board, row: int, col: int, size: nat, o: Orientation, name: ShipName)
    requires WellFormed(b) && Anchored(row, col) && CanPlace(b, row, col, size, o)
    requires NoTouch(b)
    ensures NoTouch(PlaceShip(b, row, col, size, o, name).0)
  {
  }

}

=== FILE: samples.dfy ===
/** Concrete states that satisfy the game invariant, so the lemmas that
    assume it speak about games that exist. */
module Samples {

  import opened Options
  import opened Catalog
  import opened Grid
  import opened Placement
  import opened Fleets
  import opened Dice
  import opened Targeting
  import opened Generator
  import opened Controller

  /** A horizontal ship anchored in column 0 of `row` is accepted when every
      cell from the row above downwards is open water. */
  lemma RowAccepts(b: Board, row: int, size: nat)
    requires WellFormed(b) && 0 <= row < N && size <= N && EmptyFrom(b, row - 1)
    ensures CanPlace(b, row, 0, size, Horizontal)
  {
    var ps := ShipPositions(row, 0, size, Horizontal);
    forall i | 0 <= i < |ps|
      ensures Clear(b, ps[i])
    {
      assert ps[i] == Pos(row, i);
    }
  }

  /** `(b, f)` holds the first `k` catalog ships, the `i`-th horizontal on
      row `2 i` from column 0: nothing tried, and every row from `2 k - 1`
      on empty. */
  ghost predicate LaidOut(k: nat, b: Board, f: Fleet)
  {
    && k <= 5 && WellFormed(b) && Names(f) == Order[..k]
    && NothingTried(b) && EmptyFrom(b, 2 * k - 1)
  }

  /** No cell of `b` is hit or missed. */
  ghost predicate NothingTried(b: Board)
    requires WellFormed(b)
  {
    forall q :: InBounds(q) ==> !Tried(At(b, q))
  }

  /** Every cell of `b` on row `r` or below is open water. */
  ghost predicate EmptyFrom(b: Board, r: int)
    requires WellFormed(b)
  {
    forall q :: InBounds(q) && q.row >= r ==> At(b, q) == Empty
  }

  /** The next catalog name is new and extends the names laid out so far. */
  lemma LayoutNames(f: Fleet, k: nat, rec: ShipRecord)
    requires 0 < k <= 5 && Names(f) == Order[..k - 1] && rec.name == Order[k - 1]
    ensures Order[k - 1] !in Names(f)
    ensures Names(f + [rec]) == Order[..k]
  {
    OrderIsCatalog();
    var n := Order[k - 1];
    var earlier := Order[..k - 1];
    forall i | 0 <= i < |earlier|
      ensures earlier[i] != n
    {
      assert earlier[i] == Order[i];
    }
    NamesAppend(f, rec);
    assert Order[..k] == Order[..k - 1] + [n];
  }

  /** A horizontal ship on `row` has no cell on any other row. */
  lemma OffRow(row: int, size: nat, q: Pos)
    requires q.row != row
    ensures q !in ShipPositions(row, 0, size, Horizontal)
  {
    var ps := ShipPositions(row, 0, size, Horizontal);
    forall i | 0 <= i < |ps|
      ensures ps[i] != q
    {
      assert ps[i] == Pos(row, i);
    }
  }

  /** Writing a ship on `row` keeps the board untried and leaves every row
      from `row + 1` on empty. */
  lemma LayoutCells(b: Board, b': Board, row: int, size: nat, n: ShipName)
    requires WellFormed(b) && WellFormed(b') && 0 <= row < N
    requires NothingTried(b) && EmptyFrom(b, row - 1)
    requires forall q :: InBounds(q) ==>
      At(b', q) == if q in ShipPositions(row, 0, size, Horizontal) then Ship(n) else At(b, q)
    ensures NothingTried(b') && EmptyFrom(b', row + 1)
  {
    forall q | InBounds(q) && q.row >= row + 1
      ensures At(b', q) == Empty
    {
      OffRow(row, size, q);
    }
  }

  /** Ship `k - 1` fits on row `2 (k - 1)` of the layout of the first
      `k - 1` ships, and adding it gives the layout of the first `k`. */
  lemma LayoutStep(b: Board, f: Fleet, k: nat)
    requires 0 < k <= 5 && LaidOut(k - 1, b, f)
    ensures CanPlace(b, 2 * (k - 1), 0, Size(Order[k - 1]), Horizontal)
    ensures var r := AddShip(b, f, Order[k - 1], 2 * (k - 1), 0, Horizontal);
      LaidOut(k, r.0, r.1)
  {
    var row := 2 * (k - 1);
    var n := Order[k - 1];
    RowAccepts(b, row, Size(n));
    var r := AddShip(b, f, n, row, 0, Horizontal);
    LayoutNames(f, k, ShipRecord(n, ShipPositions(row, 0, Size(n), Horizontal), 0));
    LayoutCells(b, r.0, row, Size(n), n);
  }

  /** The draws that lay out ships `k` to 4: horizontal, row `2 k`, column 0. */
  function LayoutTape(k: nat): (t: seq<real>)
    requires k <= 5
    ensures ValidTape(t) && |t| == 3 * (5 - k)
    decreases 5 - k
  {
    if k == 5 then [] else AttemptDraws(2 * k, 0, Horizontal) + LayoutTape(k + 1)
  }

  /** From a layout of the first `k` ships, those draws deploy the rest of
      the catalog, every attempt accepted, into a layout of all five. */
  lemma {:induction false} LayoutDeploys(k: nat, b: Board, f: Fleet)
    requires LaidOut(k, b, f) && Consistent(b, f) && NoTouch(b)
    ensures Distinct(Names(f) + Order[k..])
    ensures var r := Deploy(b, f, Order[k..], LayoutTape(k));
      r.Some? && LaidOut(5, r.value.0, r.value.1)
    decreases 5 - k
  {
    OrderIsCatalog();
    assert Order[..k] + Order[k..] == Order;
    if k < 5 {
      LayoutStep(b, f, k + 1);
      assert Order[k..][0] == Order[k] && Order[k..][1..] == Order[k + 1..];
      DeployCommits(b, f, Order[k..], 2 * k, 0, Horizontal, LayoutTape(k + 1));
      var r := AddShip(b, f, Order[k], 2 * k, 0, Horizontal);
      LayoutDeploys(k + 1, r.0, r.1);
    }
  }

  /** The whole catalog laid out, one ship on each even row: what fleet
      generation yields on the layout draws. */
  ghost function Laid(): (r: (Board, Fleet))
    ensures GenerateFleet(LayoutTape(0)) == Some(r)
    ensures Consistent(r.0, r.1) && NoTouch(r.0) && Names(r.1) == Order && |r.1| == 5
    ensures forall j :: 0 <= j < |r.1| ==> r.1[j].hits == 0
    ensures forall q :: InBounds(q) ==> !Tried(At(r.0, q))
    ensures forall q :: InBounds(q) && q.row == N - 1 ==> At(r.0, q) == Empty
  {
    EmptyBoardSound();
    assert Names([]) == Order[..0];
    LayoutDeploys(0, EmptyBoard(), []);
    assert Order[0..] == Order && Order[..5] == Order;
    GenerateFleet(LayoutTape(0)).value
  }

  /** Generation can succeed: on the fifteen layout draws it places the
      whole catalog, and a new game starts. */
  lemma FleetCanBeGenerated()
    ensures GenerateFleet(LayoutTape(0)).Some?
    ensures NewGame(LayoutTape(0)).Some?
  {
    var _ := Laid();
  }

  /** Placement with the computer's fleet laid out and nothing placed yet. */
  ghost function Placing(): Game
  {
    Cleared().(opponentBoard := Laid().0, opponentShips := Laid().1)
  }

  /** The battle with both sides holding the laid-out fleet, the player to shoot. */
  ghost function Battle(): Game
  {
    Cleared().(phase := InBattle, playerBoard := Laid().0, placedShips := Laid().1,
               opponentBoard := Laid().0, opponentShips := Laid().1)
  }

  /** Both a placement state and a running battle satisfy the invariant. */
  lemma InvariantInhabited()
    ensures GameInv(Placing()) && GameInv(Battle())
    ensures Placing().phase == PlacingShips && Battle().phase == InBattle && !Battle().gameOver
  {
    FreshFleetAfloat(Laid().1);
  }

  /** In that battle, once the turn passes to the computer, the two draws
      for cell (9, 0) settle a target: the random search finds open water. */
  lemma ComputerCanShoot()
    ensures var g := Battle().(playerTurn := false);
      var tape := [Draw(N - 1, N), Draw(0, N)];
      && GameInv(g) && ValidTape(tape)
      && ComputerShot(g, tape).Some?
  {
    InvariantInhabited();
    var g := Battle().(playerTurn := false);
    var b := g.playerBoard;
    HuntReaches(b, Pos(N - 1, 0));
    NoLeadMeansHunt(b, g.placedShips, [Draw(N - 1, N), Draw(0, N)]);
  }

}

=== FILE: shots.dfy ===
/** Resolving one shot against a board and the fleet placed on it; both
    sides' shots follow the same rules. */
module Shots {

  import opened Catalog
  import opened Grid
  import opened Placement
  import opened Fleets

  /** What a shot did. `Defeated` takes precedence over `Sunk`, which takes
      precedence over `Struck`. */
  datatype Outcome = AlreadyShot | Missed | Struck | Sunk(name: ShipName) | Defeated

  datatype Shot = Shot(board: Board, fleet: Fleet, outcome: Outcome)

  /** One more hit on every record named `n`; other records as they were. */
  function RecordHit(f: Fleet, n: ShipName): (r: Fleet)
    ensures |r| == |f|
    ensures forall k :: 0 <= k < |f| ==> r[k].name == f[k].name && r[k].positions == f[k].positions
    ensures forall k :: 0 <= k < |f| ==> (r[k].hits == f[k].hits + 1 <==> f[k].name == n)
    ensures forall k :: 0 <= k < |f| && f[k].name != n ==> r[k] == f[k]
  {
    seq(|f|, k requires 0 <= k < |f| => if f[k].name == n then f[k].(hits := f[k].hits + 1) else f[k])
  }

  /** Some record named `n` reaches its length with one more hit. */
  predicate SinksWithNextHit(f: Fleet, n: ShipName)
  {
    exists k :: 0 <= k < |f| && f[k].name == n && f[k].hits + 1 == Size(n)
  }

  /** A shot at a cell not shot before: open water becomes `Miss`; a ship cell
      becomes struck and its ship takes one hit, and the outcome reports a
      defeat if every ship is now sunk, else a sinking, else a plain hit. */
  function Strike(b: Board, f: Fleet, p: Pos): (s: Shot)
    requires WellFormed(b) && InBounds(p) && !Tried(At(b, p))
    ensures WellFormed(s.board) && |s.fleet| == |f|
    ensures forall q :: InBounds(q) && q != p ==> At(s.board, q) == At(b, q)
    ensures At(b, p) == Empty ==> At(s.board, p) == Miss && s.fleet == f && s.outcome == Missed
    ensures At(b, p).Ship? ==> At(s.board, p) == Hit(At(b, p).name) && s.outcome != Missed
    ensures s.outcome != AlreadyShot
  {
    match At(b, p)
    case Empty => Shot(SetCell(b, p, Miss), f, Missed)
    case Ship(n) =>
      var f' := RecordHit(f, n);
      var outcome := if AllSunk(f') then Defeated else if SinksWithNextHit(f, n) then Sunk(n) else Struck;
      Shot(SetCell(b, p, Hit(n)), f', outcome)
  }

  /** A shot by the player: a cell already struck or missed is refused and
      nothing changes; any other cell is resolved by `Strike`. */
  function Fire(b: Board, f: Fleet, p: Pos): (s: Shot)
    requires WellFormed(b) && InBounds(p)
    ensures s.outcome == AlreadyShot <==> Tried(At(b, p))
    ensures s.outcome == AlreadyShot ==> s.board == b && s.fleet == f
  {
    if Tried(At(b, p)) then Shot(b, f, AlreadyShot) else Strike(b, f, p)
  }

  /** A second shot at the same cell is refused and changes nothing: no
      counter moves, whatever the first shot did. */
  lemma RepeatShotIgnored(b: Board, f: Fleet, p: Pos)
    requires WellFormed(b) && InBounds(p)
    ensures var s := Fire(b, f, p);
      Fire(s.board, s.fleet, p) == Shot(s.board, s.fleet, AlreadyShot)
  {
  }

  /** How a shot changes the fleet: a miss changes no record; a hit on ship
      `n` gives the record of `n` exactly one more hit and leaves every other
      record as it was; with consistent records no ship exceeds its length. */
  lemma StrikeCounters(b: Board, f: Fleet, p: Pos)
    requires Consistent(b, f) && InBounds(p) && !Tried(At(b, p))
    ensures var s := Strike(b, f, p);
      && (At(b, p) == Empty ==> s.fleet == f)
      && (At(b, p).Ship? ==>
            (forall k :: 0 <= k < |f| && f[k].name == At(b, p).name ==> s.fleet[k] == f[k].(hits := f[k].hits + 1))
            && (forall k :: 0 <= k < |f| && f[k].name != At(b, p).name ==> s.fleet[k] == f[k]))
      && (forall k :: 0 <= k < |s.fleet| ==> s.fleet[k].hits <= Size(s.fleet[k].name))
  {
    StrikeHitsBounded(b, f, p);
  }

  /** After a shot at a consistent fleet, no ship has more hits than its length. */
  lemma StrikeHitsBounded(b: Board, f: Fleet, p: Pos)
    requires Consistent(b, f) && InBounds(p) && !Tried(At(b, p))
    ensures var s := Strike(b, f, p);
      forall k :: 0 <= k < |s.fleet| ==> s.fleet[k].hits <= Size(s.fleet[k].name)
  {
    var s := Strike(b, f, p);
    StrikeKeepsConsistent(b, f, p);
    HitsBounded(s.board, s.fleet);
  }

  /** The outcome rule: a shot defeats the fleet exactly when it strikes a ship
      and afterwards every ship's hits equal its length; it reports `Sunk(n)`
      exactly when it completes ship `n` without ending the game. */
  lemma OutcomeRule(b: Board, f: Fleet, p: Pos)
    requires Consistent(b, f) && InBounds(p) && !Tried(At(b, p))
    ensures var s := Strike(b, f, p);
      && (s.outcome == Defeated <==> At(b, p).Ship? && AllSunk(s.fleet))
      && (forall n :: s.outcome == Sunk(n) <==>
            At(b, p) == Ship(n) && !AllSunk(s.fleet)
            && exists k :: 0 <= k < |s.fleet| && s.fleet[k].name == n && IsSunk(s.fleet[k]))
      && (s.outcome == Struck ==> At(b, p).Ship? && !AllSunk(s.fleet))
  {
  }

  /** Renaming no record keeps the list of names. */
  lemma SameNames(f: Fleet, f': Fleet)
    requires |f'| == |f| && forall k :: 0 <= k < |f| ==> f'[k].name == f[k].name
    ensures Names(f') == Names(f)
  {
  }

  /** After a hit at `p`, a record listing `p` fits with one more hit, and a
      record not listing `p` fits unchanged. */
  lemma HitKeepsRecord(b: Board, p: Pos, n: ShipName, s: ShipRecord)
    requires WellFormed(b) && InBounds(p) && At(b, p) == Ship(n) && RecordFits(b, s)
    ensures p in s.positions ==> RecordFits(SetCell(b, p, Hit(n)), s.(hits := s.hits + 1))
    ensures p !in s.positions ==> RecordFits(SetCell(b, p, Hit(n)), s)
  {
    var b' := SetCell(b, p, Hit(n));
    var qs := s.positions;
    if p in qs {
      HitCountStrike(b, b', qs, p);
    } else {
      HitCountFrame(b, b', qs);
    }
  }

  /** A hit on ship `n` at `p`, a cell of record `o`, keeps record `k`
      fitting the board. */
  lemma HitKeepsRecordAt(b: Board, f: Fleet, p: Pos, n: ShipName, o: int, k: int)
    requires Consistent(b, f) && InBounds(p) && At(b, p) == Ship(n)
    requires 0 <= o < |f| && f[o].name == n && p in f[o].positions && 0 <= k < |f|
    ensures RecordFits(SetCell(b, p, Hit(n)), RecordHit(f, n)[k])
  {
    var f' := RecordHit(f, n);
    assert RecordFits(b, f[k]);
    HitKeepsRecord(b, p, n, f[k]);
    if f[k].name == n {
      UniqueName(f, o, k);
      assert f'[k] == f[k].(hits := f[k].hits + 1);
    } else {
      assert f'[k] == f[k];
      assert p !in f[k].positions;
    }
  }

  /** A hit on ship `n` at `p` keeps each record fitting the board. */
  lemma HitKeepsRecords(b: Board, f: Fleet, p: Pos, n: ShipName)
    requires Consistent(b, f) && InBounds(p) && At(b, p) == Ship(n)
    ensures forall k :: 0 <= k < |f| ==> RecordFits(SetCell(b, p, Hit(n)), RecordHit(f, n)[k])
  {
    var o :| 0 <= o < |f| && f[o].name == n && p in f[o].positions;
    forall k | 0 <= k < |f|
      ensures RecordFits(SetCell(b, p, Hit(n)), RecordHit(f, n)[k])
    {
      HitKeepsRecordAt(b, f, p, n, o, k);
    }
  }

  /** A shot keeps every ship cell owned by some record. */
  lemma StrikeKeepsOwners(b: Board, f: Fleet, p: Pos)
    requires Consistent(b, f) && InBounds(p) && !Tried(At(b, p))
    ensures var s := Strike(b, f, p);
      forall q :: InBounds(q) && Named(At(s.board, q)) ==> Owned(s.fleet, q, At(s.board, q).name)
  {
    var s := Strike(b, f, p);
    forall q | InBounds(q) && Named(At(s.board, q))
      ensures Owned(s.fleet, q, At(s.board, q).name)
    {
      assert Named(At(b, q)) && At(s.board, q).name == At(b, q).name;
      var k :| 0 <= k < |f| && f[k].name == At(b, q).name && q in f[k].positions;
      assert s.fleet[k].name == f[k].name && s.fleet[k].positions == f[k].positions;
    }
  }

  /** A shot keeps the records consistent with the board. */
  lemma StrikeKeepsConsistent(b: Board, f: Fleet, p: Pos)
    requires Consistent(b, f) && InBounds(p) && !Tried(At(b, p))
    ensures var s := Strike(b, f, p); Consistent(s.board, s.fleet)
  {
    var s := Strike(b, f, p);
    SameNames(f, s.fleet);
    StrikeKeepsOwners(b, f, p);
    if At(b, p) == Empty {
      RecordsKept(b, s.board, f, [p]);
    } else {
      HitKeepsRecords(b, f, p, At(b, p).name);
    }
  }

  /** A shot changes no cell's ship, so ships stay apart. */
  lemma StrikeKeepsApart(b: Board, f: Fleet, p: Pos)
    requires WellFormed(b) && NoTouch(b) && InBounds(p) && !Tried(At(b, p))
    ensures NoTouch(Strike(b, f, p).board)
  {
    var b' := Strike(b, f, p).board;
    assert forall q :: InBounds(q) && Named(At(b', q)) ==> Named(At(b, q)) && At(b', q).name == At(b, q).name;
  }

  /** Once every ship of a consistent fleet is sunk no further shot can hit or
      defeat it again: each later shot is refused or misses. */
  lemma DefeatedOnlyOnce(b: Board, f: Fleet, p: Pos)
    requires Consistent(b, f) && AllSunk(f) && InBounds(p)
    ensures Fire(b, f, p).outcome in {AlreadyShot, Missed}
  {
    AllSunkNoShipLeft(b, f);
  }

}

=== FILE: targeting.dfy ===
/** How the computer picks its next shot at the player's board. It keeps no
    memory: each turn it looks at the board for struck cells of ships still
    afloat and, if any has an untried 4-neighbour, shoots at one of those;
    otherwise it draws random cells until one has not been tried. */
module Targeting {

  import opened Options
  import opened Catalog
  import opened Grid
  import opened Fleets
  import opened Dice
  import opened Shots

  /** A struck cell of a ship not yet sunk, as judged from the first record of
      that name; a name without a record does not count. */
  predicate IsLive(b: Board, f: Fleet, p: Pos)
    requires WellFormed(b) && InBounds(p)
  {
    At(b, p).Hit? &&
    match Find(f, At(b, p).name)
    case Some(s) => s.hits < Size(At(b, p).name)
    case None => false
  }

  /** The live cells from (r, c) onwards, scanning row by row. */
  function LiveScan(b: Board, f: Fleet, r: int, c: int): (hs: seq<Pos>)
    requires WellFormed(b) && 0 <= r <= N && 0 <= c <= N
    ensures forall h :: h in hs ==> InBounds(h)
    ensures forall h :: h in hs <==> InBounds(h) && (h.row > r || (h.row == r && h.col >= c)) && IsLive(b, f, h)
    decreases N - r, N - c
  {
    if r == N then []
    else if c == N then LiveScan(b, f, r + 1, 0)
    else (if IsLive(b, f, Pos(r, c)) then [Pos(r, c)] else []) + LiveScan(b, f, r, c + 1)
  }

  /** Every live cell of the board, in row-major order. */
  function LiveHits(b: Board, f: Fleet): (hs: seq<Pos>)
    requires WellFormed(b)
    ensures forall h :: h in hs <==> InBounds(h) && IsLive(b, f, h)
  {
    LiveScan(b, f, 0, 0)
  }

  /** The cells of `qs` that are on the board and not yet tried, in order. */
  function Untried(b: Board, qs: seq<Pos>): (r: seq<Pos>)
    requires WellFormed(b)
    ensures forall q :: q in r <==> q in qs && InBounds(q) && !Tried(At(b, q))
  {
    if qs == [] then []
    else (if InBounds(qs[0]) && !Tried(At(b, qs[0])) then [qs[0]] else []) + Untried(b, qs[1..])
  }

  /** The untried 4-neighbours of `p`: above, below, left, right. */
  function Openings(b: Board, p: Pos): (qs: seq<Pos>)
    requires WellFormed(b)
    ensures forall q :: q in qs <==> Adjacent(p, q) && InBounds(q) && !Tried(At(b, q))
  {
    var around := [Pos(p.row - 1, p.col), Pos(p.row + 1, p.col), Pos(p.row, p.col - 1), Pos(p.row, p.col + 1)];
    assert forall q :: Adjacent(p, q) <==> q in around;
    Untried(b, around)
  }

  /** `q` is a 4-neighbour of some cell of `hs`. */
  predicate NextToAny(hs: seq<Pos>, q: Pos)
  {
    exists h :: h in hs && Adjacent(h, q)
  }

  /** `q` is a 4-neighbour of some live cell. */
  ghost predicate NextToLive(b: Board, f: Fleet, q: Pos)
    requires WellFormed(b)
  {
    exists h :: InBounds(h) && IsLive(b, f, h) && Adjacent(h, q)
  }

  /** The openings of every cell of `hs`, concatenated; a cell shared by two
      struck cells is listed twice. */
  function OpeningsOf(b: Board, hs: seq<Pos>): (qs: seq<Pos>)
    requires WellFormed(b)
    ensures forall q :: q in qs <==> InBounds(q) && !Tried(At(b, q)) && NextToAny(hs, q)
  {
    if hs == [] then []
    else
      var rest := OpeningsOf(b, hs[1..]);
      assert forall q :: NextToAny(hs, q) <==> Adjacent(hs[0], q) || NextToAny(hs[1..], q);
      Openings(b, hs[0]) + rest
  }

  /** Where the computer follows up: the untried 4-neighbours of live cells. */
  function Candidates(b: Board, f: Fleet): (qs: seq<Pos>)
    requires WellFormed(b)
    ensures forall q :: q in qs <==> InBounds(q) && !Tried(At(b, q)) && NextToLive(b, f, q)
  {
    var hs := LiveHits(b, f);
    assert forall q :: NextToAny(hs, q) <==> NextToLive(b, f, q);
    OpeningsOf(b, hs)
  }

  /** Random search: two draws give a row and a column; a tried cell is drawn
      again. `None` when the tape runs out first. */
  function Hunt(b: Board, tape: seq<real>): (r: Option<Pos>)
    requires WellFormed(b) && ValidTape(tape)
    ensures r.Some? ==> InBounds(r.value) && !Tried(At(b, r.value))
    decreases |tape|
  {
    if |tape| < 2 then None
    else
      var p := Pos(Scale(tape[0], N), Scale(tape[1], N));
      if Tried(At(b, p)) then Hunt(b, tape[2..]) else Some(p)
  }

  /** The computer's choice: one of the candidates, picked by one draw, when
      there are live cells with openings; random search otherwise. */
  function ChooseTarget(b: Board, f: Fleet, tape: seq<real>): (r: Option<Pos>)
    requires WellFormed(b) && ValidTape(tape)
    ensures r.Some? ==> InBounds(r.value) && !Tried(At(b, r.value))
  {
    if |LiveHits(b, f)| > 0 then
      var qs := Candidates(b, f);
      if |qs| > 0 then
        if |tape| == 0 then None else Some(Pick(qs, tape[0]))
      else Hunt(b, tape)
    else Hunt(b, tape)
  }

  /** The element at a drawn index: `list[floor(u * |list|)]`. */
  function Pick(qs: seq<Pos>, u: real): (q: Pos)
    requires |qs| > 0 && Unit(u)
    ensures q in qs
  {
    qs[Scale(u, |qs|)]
  }

  /** Random search can end on any untried cell: two draws suffice. */
  lemma HuntReaches(b: Board, p: Pos)
    requires WellFormed(b) && InBounds(p) && !Tried(At(b, p))
    ensures var u := Draw(p.row, N);
      var v := Draw(p.col, N);
      ValidTape([u, v]) && Hunt(b, [u, v]) == Some(p)
  {
  }

  /** While a ship is hit but afloat and one of its struck cells has an
      untried neighbour, the computer's shot lands next to a live cell. */
  lemma TargetFollowsLiveHits(b: Board, f: Fleet, tape: seq<real>, h: Pos, q: Pos)
    requires WellFormed(b) && ValidTape(tape) && |tape| > 0
    requires InBounds(h) && IsLive(b, f, h) && InBounds(q) && Adjacent(h, q) && !Tried(At(b, q))
    ensures var t := ChooseTarget(b, f, tape); t.Some? && t.value in Candidates(b, f) && NextToLive(b, f, t.value)
  {
    assert h in LiveHits(b, f);
    assert q in Candidates(b, f);
  }

  /** Candidates exist only next to live cells. */
  lemma CandidatesNeedLiveHits(b: Board, f: Fleet)
    requires WellFormed(b) && |Candidates(b, f)| > 0
    ensures |LiveHits(b, f)| > 0
  {
    var qs := Candidates(b, f);
    var q := qs[0];
    assert q in qs;
    assert NextToLive(b, f, q);
    var h :| InBounds(h) && IsLive(b, f, h) && Adjacent(h, q);
    var hs := LiveHits(b, f);
    assert h in hs;
  }

  /** Every candidate is the computer's choice for some draw. */
  lemma EveryCandidateReachable(b: Board, f: Fleet, i: nat)
    requires WellFormed(b) && i < |Candidates(b, f)|
    ensures var u := Draw(i, |Candidates(b, f)|);
      Unit(u) && ChooseTarget(b, f, [u]) == Some(Candidates(b, f)[i])
  {
    CandidatesNeedLiveHits(b, f);
  }

  /** With no live cell — every struck ship already sunk — the computer
      falls back to random search. */
  lemma NoLeadMeansHunt(b: Board, f: Fleet, tape: seq<real>)
    requires WellFormed(b) && ValidTape(tape)
    requires forall h :: InBounds(h) ==> !IsLive(b, f, h)
    ensures ChooseTarget(b, f, tape) == Hunt(b, tape)
  {
  }

  /** With live cells but no untried cell next to any of them, the computer
      falls back to random search too. */
  lemma NoOpeningMeansHunt(b: Board, f: Fleet, tape: seq<real>)
    requires WellFormed(b) && ValidTape(tape)
    requires |Candidates(b, f)| == 0
    ensures ChooseTarget(b, f, tape) == Hunt(b, tape)
  {
  }

  /** In a fleet with distinct names, a struck cell of a sunk ship is not live. */
  lemma SunkNameNotLive(b: Board, f: Fleet, k: int)
    requires WellFormed(b) && Distinct(Names(f)) && 0 <= k < |f| && IsSunk(f[k])
    ensures forall h :: InBounds(h) && At(b, h) == Hit(f[k].name) ==> !IsLive(b, f, h)
  {
    var r := Find(f, f[k].name);
    assert HasShip(f, f[k].name);
    var j :| 0 <= j < |f| && f[j] == r.value && r.value.name == f[k].name;
    UniqueName(f, j, k);
  }

  /** The record of the ship a sinking or defeating shot struck is sunk. */
  lemma StruckShipSunk(b: Board, f: Fleet, p: Pos) returns (k: int)
    requires Consistent(b, f) && InBounds(p) && At(b, p).Ship?
    requires Strike(b, f, p).outcome.Sunk? || Strike(b, f, p).outcome == Defeated
    ensures 0 <= k < |f| && Strike(b, f, p).fleet[k].name == At(b, p).name && IsSunk(Strike(b, f, p).fleet[k])
  {
    var n := At(b, p).name;
    StrikeCounters(b, f, p);
    if Strike(b, f, p).outcome.Sunk? {
      k :| 0 <= k < |f| && f[k].name == n && f[k].hits + 1 == Size(n);
    } else {
      k :| 0 <= k < |f| && f[k].name == n && p in f[k].positions;
    }
  }

  /** Once a shot sinks a ship, the struck cells of that ship are no longer
      live, so they stop steering the computer from its next turn on. */
  lemma SunkShipDropsOut(b: Board, f: Fleet, p: Pos)
    requires Consistent(b, f) && InBounds(p) && At(b, p).Ship?
    requires Strike(b, f, p).outcome.Sunk? || Strike(b, f, p).outcome == Defeated
    ensures var s := Strike(b, f, p);
      forall h :: InBounds(h) && At(s.board, h) == Hit(At(b, p).name) ==> !IsLive(s.board, s.fleet, h)
  {
    StrikeKeepsConsistent(b, f, p);
    var k := StruckShipSunk(b, f, p);
    SunkNameNotLive(Strike(b, f, p).board, Strike(b, f, p).fleet, k);
  }

}
